=== FILE: README.md ===
# Webfleet GPS API — a Dafny model of the scraper core

`webfleet_server.py` keeps a live snapshot of vehicle positions. A headless browser logs
in to the Webfleet portal, intercepts two JSON responses the portal's web application
fetches ("objects" and "latest telemetry"), and reconciles them into one position record
per vehicle. It stores the records in an in-memory cache and serves them over HTTP behind
an API key. This project models the parts of that program that are pure logic once the
browser and the HTTP transport are taken away:

- **Reconciler** (`reconciler.dfy`, module `Reconciler`): `WebfleetScraper.get_positions`.
  Raw records are typed records of `Option<Json>`: `None` means the key is absent, and
  `Some(JNull)` means the key is present with value `null`. Every exception the code can
  raise on input of the wrong type or shape (a missing key, an unhashable id, a
  non-string plate, a non-dict container, a non-numeric odometer) is an `Err`; the
  `OverflowError` of an odometer beyond the float range is not modelled (see "Left
  out"). Module `ReconcilerLaws` states what a reconciliation guarantees.
- **Snapshot cache** (`cache.dfy`, module `SnapshotCache`): `DataCache` as an immutable
  record with pure transitions (`update`, `set_error`, the login counter) and views
  (`get`, `stats`).
- **Query service** (`query.dfy`, module `QueryService`): the health predicate, and the
  plate, number, moving and stopped filters with their recomputed `count`.
- **Authentication** (`auth.dfy`, module `Auth`): `check_auth`.
- **Request dispatch** (`api.dfy`, module `ApiHandler`): which status and body
  `do_GET` and `do_HEAD` produce for each route.
- **Supervisor** (`supervisor.dfy`, module `Supervisor`): `background_scraper` as a step
  function. Browser outcomes (start, login, reload, snapshot-file write) and the arrival
  of intercepted responses are events.
- Helpers: `wrappers.dfy` (Option/Result), `json.dfy` (JSON values with Python
  truthiness, dictionary-key equality and comparison with 0), `text.dfy` (`strip`,
  `upper`, `startswith`, substring), `seqs.dfy` (order-preserving filtering and the
  stop-at-first-exception loop), `scenarios.dfy` (concrete end-to-end cases).

The model follows the code, including behaviour a reader of the endpoint names might
not expect:

- Reconciliation raises on malformed input. Examples: a telemetry entry without
  `objectId`, a non-string licence plate, a non-numeric odometer, or a `location` that is
  not a dict. When that happens, the supervisor records the exception and restarts the
  browser (`webfleet_server.py:306-309`).
- A telemetry `position` that is present but `null` becomes `{}`. The object's own
  position is then not used, because the fallback applies only when the key is absent
  (`webfleet_server.py:245`).
- One record is made per object entry, not per distinct `objectId`, so duplicate entries
  give duplicate records (`webfleet_server.py:243`).
- `GET /health` always answers HTTP 200 with the verdict in the body. Only
  `HEAD /health` answers 503 (`webfleet_server.py:376`, `:389-390`).
- An empty error string counts as healthy, like no error at all
  (`webfleet_server.py:376`, `:389`).
- A record with `stand_still = false` and speed 0 is listed as moving, because the test
  is `not stand_still or speed > 0` (`webfleet_server.py:423`).
- `secrets.compare_digest` raises `TypeError` on a non-ASCII string. The handler then
  drops the connection without answering (`webfleet_server.py:344`, `:351`).

## Model

| member | source | states |
|---|---|---|
| JsonValue.KeyOf | webfleet_server.py:240 | telemetry ids become dictionary keys; lists and dicts are unhashable, `null` is its own key, string ids keep their text, and a number's key is its numeric value |
| JsonValue.Truthy | webfleet_server.py:237 | Python truthiness, used by `or`, `not` and `if` on decoded values (also lines 245, 260, 376, 389, 423, 430): `None`, `False`, zero and empty strings, lists and dicts are false |
| JsonValue.NumbersShareKeys | webfleet_server.py:240 | any two numbers of equal value are the same dictionary key whatever their type, so `True`, `1` and `1.0` are one key and `False` and `0` another; conversely two ids share a key only when both are `null`, equal strings, or numbers of equal value, so `1` and `"1"` differ |
| JsonValue.Member | webfleet_server.py:253-255 | `dict.get(name)` finds a value exactly when the key is present, and then it is that key's value |
| JsonValue.EqualsZero | webfleet_server.py:430 | `speed == 0` holds exactly for numbers of value zero, including `False` and `0.0`, and never raises |
| JsonValue.NumericValue | webfleet_server.py:261 | exactly booleans, integers and floats take part in arithmetic: `True` as 1, `False` as 0, and numbers as their own value |
| JsonValue.GreaterThanZero | webfleet_server.py:423 | `speed > 0` is defined exactly for numeric values, and then says whether the numeric value is positive |
| Text.IsSpace | webfleet_server.py:251 | the characters `str.strip()` removes: Python's Unicode whitespace set, by code point |
| Text.Strip | webfleet_server.py:251 | the stripped plate is a middle slice of the raw plate with only whitespace cut off and no whitespace left at either end |
| Text.StripIdempotent | webfleet_server.py:251 | stripping an already stripped plate changes nothing |
| Text.Upper | webfleet_server.py:412 | upper-casing keeps the length and maps each character in place |
| Text.StartsWith | webfleet_server.py:342 | `str.startswith`: the string begins with the given prefix |
| Text.Contains | webfleet_server.py:412 | the `in` test on strings, as a left-to-right scan for the needle |
| Text.ContainsIff | webfleet_server.py:412 | the substring test holds exactly when the needle occurs at some position of the haystack |
| Seqs.Filter | webfleet_server.py:411-432 | a list comprehension keeps exactly the elements meeting its condition, each as often as it occurs, as an order-preserving subsequence |
| Seqs.FilterAppend | webfleet_server.py:411-432 | filtering a concatenation is concatenating the filtered parts |
| Seqs.FilterKeepsAll | webfleet_server.py:411-432 | a comprehension whose condition every element meets returns the list unchanged |
| Seqs.DisjointFilterCounts | webfleet_server.py:422-430 | two filters with conditions no element meets together select at most as many elements as the list holds |
| Seqs.PartitionFilterCounts | webfleet_server.py:422-430 | when each element meets exactly one of two conditions, the two selections together count every element |
| Seqs.MapUntilError | webfleet_server.py:243-262 | the loop over objects either succeeds on every entry, with one result per entry in order, or raises the error of the first failing entry |
| Reconciler.CapturedOrEmpty | webfleet_server.py:234-235 | a list never captured reads as an empty list |
| Reconciler.Message | webfleet_server.py:306-308 | the text recorded for a reconciliation exception is never empty |
| Reconciler.IdKey | webfleet_server.py:240-244 | reading `objectId` as a key fails exactly when the key is missing or the id is unhashable |
| Reconciler.LastWithKey | webfleet_server.py:240 | reference meaning of last-write-wins: the entry returned carries the key and no later entry does; none is returned only when no entry carries it |
| Reconciler.IndexTelemetry | webfleet_server.py:240 | the telemetry index is built exactly when every entry has a usable id; it maps each id to the last entry carrying it, and otherwise fails with the first bad entry's error |
| Reconciler.ResolvePosition | webfleet_server.py:245 | telemetry's position is used whenever the key is present, even when null; the object's position only when telemetry lacks the key; any falsy value becomes `{}` |
| Reconciler.AddressIn | webfleet_server.py:255-256 | `.get("address", "")` succeeds exactly on dicts and defaults to the empty string |
| Reconciler.ResolveAddress | webfleet_server.py:255-256 | for a dict position the address is read from its `location`, otherwise from `locationDescription`; a missing container gives "", a container that is not a dict raises, and a dict gives its `address` or "" |
| Reconciler.PositionField | webfleet_server.py:253-254 | coordinates and time are read only from a dict position and are null otherwise |
| Reconciler.StrippedPlate | webfleet_server.py:251 | the plate defaults to the empty string, is stripped when it is a string, and raises otherwise |
| Reconciler.OdometerKm | webfleet_server.py:261 | the odometer in kilometres is the raw value divided by 100, 0 when absent, and raises on a non-number |
| Reconciler.RecordFor | webfleet_server.py:247-262 | a record is built exactly when the plate, the address and the odometer can be read, and the first of them to fail, in that order, is the error; a record carries the object's id, number, name and type (each defaulting to ""), the stripped plate, the odometer in kilometres, the telemetry's speed, ignition and stand-still with their defaults, the coordinates and address of the resolved position, and its GPS time when truthy, else the object's `lastGpsTime` |
| Reconciler.ReconcileOne | webfleet_server.py:243-262 | one loop iteration fails first on a missing or unhashable id, and otherwise yields a record with the object's id |
| Reconciler.ReconcileAll | webfleet_server.py:243-264 | every object entry yields a record, in the same order, or the first failing entry's error is raised |
| Reconciler.Reconcile | webfleet_server.py:233-264 | a missing, null or empty objects list yields no records whatever the telemetry; otherwise a successful run yields one record per object entry |
| ReconcilerLaws.TelemetryFor | webfleet_server.py:244 | an object whose id no telemetry entry carries is matched with the empty telemetry `{}` |
| ReconcilerLaws.RecordUsesLastTelemetry | webfleet_server.py:240-262 | each record is the record of the object at the same index, built from the last telemetry entry with its id |
| ReconcilerLaws.RecordsFollowObjects | webfleet_server.py:243-262 | one record per object entry in order, with the object's id, its plate stripped of surrounding whitespace, and its odometer divided by 100 (0 if absent) |
| ReconcilerLaws.MissingTelemetryDefaults | webfleet_server.py:244-259 | an object without telemetry keeps its record, with speed 0, ignition "UNKNOWN" and stand-still false |
| ReconcilerLaws.LastTelemetryWins | webfleet_server.py:240-259 | with duplicate telemetry ids, speed, ignition and stand-still come from the last entry carrying the id |
| ReconcilerLaws.NullTelemetryPositionHidesObjectPosition | webfleet_server.py:245-260 | a telemetry position that is null hides the object's position: null coordinates, empty address, GPS time from the object |
| ReconcilerLaws.TelemetryPositionLocatesRecord | webfleet_server.py:245-260 | a non-empty position dict in the matched telemetry supplies the record's latitude and longitude, and its GPS time when that is truthy |
| ReconcilerLaws.ObjectPositionLocatesRecord | webfleet_server.py:245-260 | when the telemetry has no position key, a non-empty position dict on the object supplies the coordinates and GPS time instead |
| ReconcilerLaws.LocationDescriptionOnlyForNonDictPosition | webfleet_server.py:245-256 | `locationDescription` is read only when the chosen position is a truthy non-dict; with no position the address is empty |
| ReconcilerLaws.DuplicateObjectsKept | webfleet_server.py:243 | a duplicated object entry yields two identical records |
| ReconcilerLaws.BadTelemetryIdRaises | webfleet_server.py:240 | one telemetry entry without a usable id makes a non-empty capture raise |
| ReconcilerLaws.WellFormedCaptureReconciles | webfleet_server.py:233-264 | captures of the shape the portal sends always reconcile, with one record per object entry |
| SnapshotCache.Update | webfleet_server.py:63-68 | an update replaces the positions, stamps the time, clears the error, adds exactly one refresh and keeps the login count |
| SnapshotCache.SetError | webfleet_server.py:70-73 | recording an error changes only the error; positions, update time and both counters are kept |
| SnapshotCache.CountLogin | webfleet_server.py:148 | a login attempt adds one to the login count and changes nothing else |
| SnapshotCache.CacheAge | webfleet_server.py:77-85 | the age is null before the first update and when it is exactly zero, and otherwise is the elapsed time in seconds |
| SnapshotCache.Get | webfleet_server.py:75-87 | a read returns the cached positions with a count equal to their number, the update time and the error; the age is null until the first update |
| SnapshotCache.Stats | webfleet_server.py:89-97 | the statistics report both counters, a vehicle count equal to the number of positions, the update time and the error |
| SnapshotCache.GetIsStable | webfleet_server.py:75-87 | two reads with no update between them agree on everything but the age |
| SnapshotCache.GetAfterUpdate | webfleet_server.py:63-87 | a read after an update shows exactly the stored positions, their count, the update time and no error |
| SnapshotCache.SetErrorKeepsSnapshot | webfleet_server.py:70-97 | after an error is recorded, reads and statistics differ only in the error |
| QueryService.HealthStatus | webfleet_server.py:389 | the status is "healthy" exactly when the cache has been updated and the error is null or empty, and "unhealthy" otherwise |
| QueryService.HeadHealthCode | webfleet_server.py:376 | the health probe answers 200 exactly when healthy, and 503 otherwise |
| QueryService.IsHealthy | webfleet_server.py:376 | the health test of both probes (also line 389): updated at least once, with no error or an empty one |
| QueryService.PlateMatches | webfleet_server.py:412 | a record matches a plate query when the upper-cased query occurs in its upper-cased plate |
| QueryService.NumberMatches | webfleet_server.py:415 | a record matches a number query when its number is that exact string |
| QueryService.IsMoving | webfleet_server.py:423 | a record is moving when its stand-still is falsy or its speed is positive |
| QueryService.IsStopped | webfleet_server.py:430 | a record is stopped when its stand-still is truthy and its speed equals 0 |
| QueryService.SelectVehicles | webfleet_server.py:405-415 | a non-empty plate selects case-insensitive plate matches and wins over number; otherwise a non-empty number selects exact matches; otherwise nothing is filtered; the order and the number of copies of each record are kept |
| QueryService.MovingPositions | webfleet_server.py:422-423 | the moving filter raises exactly when a record with a truthy stand-still has a speed that cannot be compared with 0; otherwise it keeps exactly the moving records in order |
| QueryService.StoppedPositions | webfleet_server.py:429-430 | the stopped filter keeps exactly the records with a truthy stand-still and a speed equal to 0, in order and with every copy |
| QueryService.WithPositions | webfleet_server.py:411-431 | replacing the positions recomputes the count and keeps update time, age and error |
| QueryService.VehicleView | webfleet_server.py:405-418 | the vehicle route returns the selected records with a matching count and otherwise the cache's own fields |
| QueryService.MovingView | webfleet_server.py:420-425 | the moving route raises exactly when the filter does, and otherwise returns every copy of each moving record, in order, with a matching count |
| QueryService.StoppedView | webfleet_server.py:427-432 | the stopped route returns every copy of each stopped record, in order, with a matching count |
| QueryService.MovingAndStoppedDisjoint | webfleet_server.py:420-432 | no record is both moving and stopped, so the two counts add up to at most the total |
| QueryService.MovingAndStoppedPartition | webfleet_server.py:420-432 | with non-negative numeric speeds, every record is moving or stopped, so the two counts add up to the total |
| QueryService.NothingStandingStillAllMoving | webfleet_server.py:420-425 | when no record has a truthy stand-still, the moving route lists every cached record in order |
| QueryService.TextSpeedBreaksMovingOnly | webfleet_server.py:420-432 | a text speed on a stand-still record makes the moving route raise, while the stopped route just leaves the record out |
| Auth.CompareDigest | webfleet_server.py:344 | the key comparison answers only on ASCII strings, and then says exactly whether they are equal |
| Auth.BearerToken | webfleet_server.py:341-343 | a token is taken exactly from headers starting with "Bearer ", and it is the rest of the header |
| Text.IsAscii | webfleet_server.py:344 | the condition under which `compare_digest` accepts two strings (also line 351); a non-ASCII string makes it raise |
| Auth.CheckAuth | webfleet_server.py:335-354 | with no key configured every request passes; a request passes only when its bearer token or its query key equals the key; the check raises exactly when the bearer comparison, or the query comparison reached after a non-matching header, gets a non-ASCII string |
| Auth.CheckAuthIff | webfleet_server.py:335-354 | with an ASCII key and ASCII credentials, a request passes exactly when the bearer token or the query key equals the key |
| Auth.QueryKeyAccepted | webfleet_server.py:347-352 | the correct query key is accepted whatever ASCII header is sent |
| Auth.NonAsciiBearerRaises | webfleet_server.py:342-345 | a non-ASCII bearer token makes the check raise before the query key is consulted |
| Auth.NonAsciiQueryKeyRaises | webfleet_server.py:347-351 | a non-ASCII `api_key` query value makes the check raise when no bearer header let the request through |
| Auth.OtherSchemesIgnored | webfleet_server.py:341-342 | a header not starting with "Bearer " counts as no header |
| ApiHandler.HandleHead | webfleet_server.py:372-383 | HEAD answers only the exact target "/health", with 200 when healthy and 503 otherwise; other targets get 404 |
| ApiHandler.Route | webfleet_server.py:398-449 | each authorised path gets its own body: the snapshot for "/positions" and "/", the plate/number selection, the moving or stopped view, the statistics for "/stats", and 404 with the endpoint listing for any other path; the connection is dropped exactly when the moving filter raises |
| ApiHandler.HandleGet | webfleet_server.py:385-396 | GET "/health" answers 200 without authentication and carries the verdict in the body; any other request is refused with 401 when the key check fails, dropped when it raises, and routed when it passes |
| ApiHandler.Handle | webfleet_server.py:372-396 | a HEAD request is always answered without a body; a connection is dropped only on a GET whose key check raises or whose moving filter raises |
| ApiHandler.DataRequiresAuth | webfleet_server.py:393-435 | a response carrying positions or statistics answers a GET request that passed the key check |
| ApiHandler.AuthorisedRequestsAreServed | webfleet_server.py:398-449 | conversely, an authorised GET is served: 200 on every known path except when the moving filter raises, and 404 with the endpoint listing elsewhere |
| ApiHandler.HealthIgnoresCredentials | webfleet_server.py:374-391 | the health probe answers the same whatever credentials are sent |
| ApiHandler.HealthWithQueryIsNotHealth | webfleet_server.py:374-449 | a health target with a query string is not the probe and ends in 404 |
| Supervisor.Step | webfleet_server.py:267-319 | every login attempt adds exactly one to the login count and no other step does; a failed login records "Login failed: ...", a failed start its exception text, a raising reconciliation its message and a failed file write its exception text, and each of them restarts |
| Supervisor.StepPublishes | webfleet_server.py:283-293 | the refresh count grows exactly when a poll stores a non-empty reconciliation of the current capture, stamped with the poll's time; other steps keep positions and update time |
| Supervisor.StepPreservesInv | webfleet_server.py:285-288 | the cache is only ever updated with a non-empty list, so positions are empty exactly until the first update |
| Supervisor.ErrorClearedOnlyByUpdate | webfleet_server.py:63-73 | a recorded error disappears only through an update |
| Supervisor.CaptureFrame | webfleet_server.py:111-136 | intercepted data changes only when a response is intercepted or the page is reloaded, which forgets both lists; a browser restart keeps them |
| Supervisor.LoginFailureIsUnhealthy | webfleet_server.py:217-220 | after a failed login the service reports unhealthy |
| Supervisor.ReconcileFailureIsUnhealthy | webfleet_server.py:285-309 | a capture that makes reconciliation raise records the exception's message, leaves the service unhealthy and restarts |
| Supervisor.PublishIsHealthy | webfleet_server.py:285-293 | after a publishing poll whose file write succeeds, the service reports healthy |
| Supervisor.Run | webfleet_server.py:272-319 | the loop applies the events one at a time and stops when an event cannot happen in the current phase |
| Supervisor.RunPreservesInv | webfleet_server.py:272-319 | along any run the counters never decrease, and once updated the cache never holds an empty position list again |
| Supervisor.ReachableInv | webfleet_server.py:267-319 | every state reachable from the start has non-empty positions once it has an update time |
| Supervisor.CaptureRepublishedAfterRestart | webfleet_server.py:283-319 | after a restart that intercepts nothing new, the next poll republishes the previous session's capture with a new time and no error |
| Scenarios.ReconcileVehicleA1 | webfleet_server.py:233-264 | object A1 with plate " AB-123 " and odometer 15050, with telemetry speed 42, reconciles to plate "AB-123", speed 42, not stand-still, 150.5 km |
| Scenarios.VehicleA1IsMoving | webfleet_server.py:420-432 | that record is listed as moving and not as stopped |
| Scenarios.WrongBearerIsRefused | webfleet_server.py:393-396 | a wrong bearer token is refused with 401 |
| Scenarios.QueryKeyIsServed | webfleet_server.py:347-403 | the correct key in the query parameter is served with 200 |

## Left out

- Browser control (`start`, `close`, the login form-field discovery, `refresh`'s reload)
  is a foreign library call. Its outcomes are the supervisor's events.
- The URL matching and JSON decoding in `_intercept_response` are left out for the same
  reason. Intercepted lists arrive as events already decoded.
- Intercepted payloads that are not lists, and list elements that are not dicts, are not
  modelled. Raw records are typed records of the keys the code reads.
- `close()` raising inside the loop's `finally` is not modelled. It would end the
  background thread. `Supervisor.Step` assumes closing the browser always succeeds.
- `asyncio`, the sleeps, the thread and the lock are scheduling only. The lock does not
  change any state effect, and a sleep takes no step.
- The HTTP transport is I/O: `send_json`, headers, CORS, `do_OPTIONS`, the text of the
  404 endpoint listing, and `HTTPServer`.
- `urlparse` and `parse_qs` are library calls. A request carries their results: the path
  and the first value of each query parameter.
- The contents of `positions_latest.json`, logging, environment configuration,
  `DATA_DIR.mkdir` and API-key generation in `main` are I/O and configuration. Only a
  failed file write is modelled, as an event. `Auth.CheckAuth` takes the key as a
  parameter, so the empty-key branch covers a key that was never generated.
- Auth.CompareDigest: plain equality. The constant-time property cannot be expressed.
- SnapshotCache.CacheAge: no rounding to one decimal. The clock is an abstract
  microsecond count, and `isoformat` is not modelled.
- Reconciler.OdometerKm: exact rational division, not floating point. A decoded float is
  modelled as the exact value of the double `json.loads` produced, and the `NaN` and
  `Infinity` literals `json.loads` accepts are not modelled. The `OverflowError` that
  `int / 100` raises when the quotient lies beyond the float range (an odometer integer
  of more than about 310 digits) is not modelled either: the model returns `Ok` there,
  where the program would record the error and restart the browser.
- Text.Upper: maps only the ASCII letters. Python's full Unicode case mapping is not
  modelled.
- Reconciler.Message: uses the Python type name of the offending value. The exact
  wording of Python's messages can differ between versions.
- The login counter is incremented outside the lock. The race this allows is a
  concurrency effect and is not modelled.

=== FILE: api.dfy ===
/** Request dispatch of `APIHandler.do_GET` and `do_HEAD`: which requests need the API
    key, which status code and which body each route answers with. Headers, CORS and
    JSON encoding are transport and not modelled; URL parsing is done by `urlparse` and
    `parse_qs`, so a request carries their results next to the raw target. */
module ApiHandler {
  import opened Wrappers
  import opened SnapshotCache
  import opened QueryService
  import Auth

  datatype Verb = GET | HEAD

  /** One request: the raw target (`self.path`), its path component, the Authorization
      header if sent, and the first value `parse_qs` gives for each query parameter the
      handler reads. */
  datatype Request = Request(
    verb: Verb,
    target: string,
    path: string,
    authorization: Option<string>,
    apiKeyParam: Option<string>,
    plate: Option<string>,
    number: Option<string>)

  datatype Body =
    | NoBody
    | HealthReport(status: string, stats: StatsView)   // {"status": ..., **stats()}
    | Snapshot(view: SnapshotView)
    | Statistics(stats: StatsView)
    | Unauthorized(message: string)
    | NotFound                                         // the endpoint listing

  /** A response, or `Dropped` when the handler raises and the connection is closed
      without one. */
  datatype Response = Response(code: int, body: Body) | Dropped

  /** The paths `do_GET` serves once authorised. */
  const KnownPaths: set<string> :=
    {"/positions", "/", "/positions/vehicle", "/positions/moving", "/positions/stopped", "/stats"}

  const UnauthorizedMessage: string := "Unauthorized. Use 'Authorization: Bearer <API_KEY>' header"

  /** `do_HEAD`: only the exact target "/health" is served, with 200 or 503 and no body. */
  function HandleHead(c: Cache, target: string): (r: Response)
    ensures r.Response? && r.body == NoBody
    ensures target == "/health" ==> (r.code == 200 <==> IsHealthy(Stats(c)))
    ensures target == "/health" ==> (r.code == 503 <==> !IsHealthy(Stats(c)))
    ensures target != "/health" ==> r.code == 404
  {
    if target == "/health" then Response(HeadHealthCode(Stats(c)), NoBody)
    else Response(404, NoBody)
  }

  /** The routes behind the API key, once `check_auth` has let the request through.
      Only the moving filter can raise; every other known path answers 200 with its view
      of the cache, and an unknown path answers 404 with the endpoint listing. */
  function Route(c: Cache, now: Instant, req: Request): (r: Response)
    ensures r.Response? ==> r.code == 200 || r.code == 404
    ensures r.Dropped? <==> req.path == "/positions/moving" && MovingView(Get(c, now)).None?
    ensures req.path == "/positions" || req.path == "/" ==> r == Response(200, Snapshot(Get(c, now)))
    ensures req.path == "/positions/vehicle" ==>
              r == Response(200, Snapshot(VehicleView(Get(c, now), req.plate, req.number)))
    ensures req.path == "/positions/moving" && MovingView(Get(c, now)).Some? ==>
              r == Response(200, Snapshot(MovingView(Get(c, now)).value))
    ensures req.path == "/positions/stopped" ==> r == Response(200, Snapshot(StoppedView(Get(c, now))))
    ensures req.path == "/stats" ==> r == Response(200, Statistics(Stats(c)))
    ensures r.Response? && r.code == 404 <==> req.path !in KnownPaths
    ensures req.path !in KnownPaths ==> r == Response(404, NotFound)
  {
    if req.path == "/positions" || req.path == "/" then
      Response(200, Snapshot(Get(c, now)))
    else if req.path == "/positions/vehicle" then
      Response(200, Snapshot(VehicleView(Get(c, now), req.plate, req.number)))
    else if req.path == "/positions/moving" then
      match MovingView(Get(c, now))
      case Some(v) => Response(200, Snapshot(v))
      case None => Dropped
    else if req.path == "/positions/stopped" then
      Response(200, Snapshot(StoppedView(Get(c, now))))
    else if req.path == "/stats" then
      Response(200, Statistics(Stats(c)))
    else
      Response(404, NotFound)
  }

  /** `do_GET`: the exact target "/health" answers without authentication (always with
      HTTP 200, the health verdict being in the body); every other request must pass
      `check_auth` first. */
  function HandleGet(apiKey: string, c: Cache, now: Instant, req: Request): (r: Response)
    ensures req.target == "/health" ==>
              r == Response(200, HealthReport(HealthStatus(Stats(c)), Stats(c)))
    ensures req.target != "/health" && Auth.CheckAuth(apiKey, req.authorization, req.apiKeyParam) == Some(false) ==>
              r == Response(401, Unauthorized(UnauthorizedMessage))
    ensures req.target != "/health" && Auth.CheckAuth(apiKey, req.authorization, req.apiKeyParam).None? ==>
              r == Dropped
    ensures req.target != "/health" && Auth.CheckAuth(apiKey, req.authorization, req.apiKeyParam) == Some(true) ==>
              r == Route(c, now, req)
  {
    if req.target == "/health" then
      Response(200, HealthReport(HealthStatus(Stats(c)), Stats(c)))
    else
      match Auth.CheckAuth(apiKey, req.authorization, req.apiKeyParam)
      case None => Dropped
      case Some(false) => Response(401, Unauthorized(UnauthorizedMessage))
      case Some(true) => Route(c, now, req)
  }

  /** Dispatch on the request method. A `HEAD` request is always answered, without a body;
      a connection is dropped only on a `GET` whose key comparison raises or whose moving
      filter raises. */
  function Handle(apiKey: string, c: Cache, now: Instant, req: Request): (r: Response)
    ensures req.verb == HEAD ==> r.Response? && r.body == NoBody
    ensures r.Dropped? ==>
              req.verb == GET && req.target != "/health" &&
              (Auth.CheckAuth(apiKey, req.authorization, req.apiKeyParam).None? ||
               (Auth.CheckAuth(apiKey, req.authorization, req.apiKeyParam) == Some(true) &&
                req.path == "/positions/moving"))
  {
    match req.verb
    case HEAD => HandleHead(c, req.target)
    case GET => HandleGet(apiKey, c, now, req)
  }

  /** Cached data leaves the server only through a request that `check_auth` let through:
      any response carrying positions or counters answers an authorised request, or the
      health probe. */
  lemma DataRequiresAuth(apiKey: string, c: Cache, now: Instant, req: Request)
    requires req.target != "/health"
    requires Handle(apiKey, c, now, req).Response?
    requires Handle(apiKey, c, now, req).body.Snapshot? || Handle(apiKey, c, now, req).body.Statistics?
    ensures req.verb == GET
    ensures Auth.CheckAuth(apiKey, req.authorization, req.apiKeyParam) == Some(true)
  {
  }

  /** Conversely, a `GET` request that `check_auth` lets through is served: every known
      path but "/positions/moving" answers 200, the moving path answers unless its filter
      raises, and any other path answers 404 with the endpoint listing. */
  lemma AuthorisedRequestsAreServed(apiKey: string, c: Cache, now: Instant, req: Request)
    requires req.verb == GET && req.target != "/health"
    requires Auth.CheckAuth(apiKey, req.authorization, req.apiKeyParam) == Some(true)
    ensures req.path in KnownPaths && req.path != "/positions/moving" ==>
              Handle(apiKey, c, now, req).Response? && Handle(apiKey, c, now, req).code == 200
    ensures req.path == "/positions/moving" ==>
              (Handle(apiKey, c, now, req).Dropped? <==> MovingView(Get(c, now)).None?)
    ensures req.path !in KnownPaths ==> Handle(apiKey, c, now, req) == Response(404, NotFound)
  {
  }

  /** The health probe answers the same whatever credentials are sent. */
  lemma HealthIgnoresCredentials(apiKey: string, c: Cache, now: Instant, a: Request, b: Request)
    requires a.target == "/health" && b.target == "/health" && a.verb == b.verb
    ensures Handle(apiKey, c, now, a) == Handle(apiKey, c, now, b)
  {
  }

  /** "/health" with a query string is not the health probe: `HEAD` answers 404, and `GET`
      requires the key and then finds no route for the path "/health". */
  lemma HealthWithQueryIsNotHealth(apiKey: string, c: Cache, now: Instant, req: Request)
    requires req.target == "/health?verbose=1" && req.path == "/health"
    requires Auth.CheckAuth(apiKey, req.authorization, req.apiKeyParam) == Some(true)
    ensures Handle(apiKey, c, now, req).code == 404
  {
  }
}

=== FILE: auth.dfy ===
/** API-key authentication (`APIHandler.check_auth`): a bearer token in the
    Authorization header, or else the `api_key` query parameter, must equal the
    configured key. `secrets.compare_digest` is modelled as plain equality, including
    its one observable failure: on `str` arguments with a non-ASCII character it raises
    `TypeError` instead of answering. */
module Auth {
  import opened Wrappers
  import Text

  const BearerPrefix: string := "Bearer "

  /** `secrets.compare_digest(a, b)` on two strings: `None` when it raises. */
  function CompareDigest(a: string, b: string): (r: Option<bool>)
    ensures r.Some? <==> Text.IsAscii(a) && Text.IsAscii(b)
    ensures r == Some(true) <==> Text.IsAscii(a) && a == b
  {
    if Text.IsAscii(a) && Text.IsAscii(b) then Some(a == b) else None
  }

  /** The token carried by an Authorization header, if it has the bearer form. */
  function BearerToken(authorization: Option<string>): (token: Option<string>)
    ensures token.Some? <==> authorization.Some? && Text.StartsWith(authorization.value, BearerPrefix)
    ensures token.Some? ==> authorization.value == BearerPrefix + token.value
  {
    var header := authorization.GetOr("");
    if Text.StartsWith(header, BearerPrefix) then
      assert header == header[..7] + header[7..];
      Some(header[7..])
    else None
  }

  /** `check_auth()` given the configured key, the Authorization header (if sent) and
      the first `api_key` query value (if any): `Some(true)` to let the request through,
      `Some(false)` to refuse it, `None` when a comparison raises. */
  function CheckAuth(apiKey: string, authorization: Option<string>, apiKeyParam: Option<string>): (r: Option<bool>)
    ensures apiKey == "" ==> r == Some(true)
    ensures r == Some(true) ==>
              apiKey == "" || BearerToken(authorization) == Some(apiKey) || apiKeyParam == Some(apiKey)
    // the check raises exactly when a comparison it reaches gets a non-ASCII string: the
    // bearer comparison, or the query comparison once the bearer token has not matched
    ensures r.None? <==>
              apiKey != "" &&
              ((BearerToken(authorization).Some? &&
                !(Text.IsAscii(BearerToken(authorization).value) && Text.IsAscii(apiKey))) ||
               (!(BearerToken(authorization).Some? && Text.IsAscii(apiKey)
                  && BearerToken(authorization).value == apiKey) &&
                apiKeyParam.Some? && apiKeyParam.value != "" &&
                !(Text.IsAscii(apiKeyParam.value) && Text.IsAscii(apiKey))))
  {
    if apiKey == "" then Some(true)
    else
      var viaHeader := match BearerToken(authorization)
        case Some(token) => CompareDigest(token, apiKey)
        case None => Some(false);
      match viaHeader
      case None => None
      case Some(true) => Some(true)
      case Some(false) =>
        match apiKeyParam
        case Some(key) =>
          if key != "" then CompareDigest(key, apiKey) else Some(false)
        case None => Some(false)
  }

  /** With an ASCII key configured, the request is let through exactly when the bearer
      token or the query parameter equals the key, as long as neither comparison
      that is reached raises. */
  lemma CheckAuthIff(apiKey: string, authorization: Option<string>, apiKeyParam: Option<string>)
    requires apiKey != "" && Text.IsAscii(apiKey)
    requires BearerToken(authorization).Some? ==> Text.IsAscii(BearerToken(authorization).value)
    requires apiKeyParam.Some? ==> Text.IsAscii(apiKeyParam.value)
    ensures CheckAuth(apiKey, authorization, apiKeyParam).Some?
    ensures CheckAuth(apiKey, authorization, apiKeyParam) == Some(true) <==>
              BearerToken(authorization) == Some(apiKey) || apiKeyParam == Some(apiKey)
  {
  }

  /** A non-ASCII `api_key` query value (which `parse_qs` produces from a percent-encoded
      one such as `%C3%A9`) makes the check raise once the header has not let the request
      through. */
  lemma NonAsciiQueryKeyRaises(apiKey: string, authorization: Option<string>, key: string)
    requires apiKey != "" && Text.IsAscii(apiKey)
    requires BearerToken(authorization).None?
    requires key != "" && !Text.IsAscii(key)
    ensures CheckAuth(apiKey, authorization, Some(key)).None?
  {
  }

  /** A correct key in the query parameter is accepted whatever ASCII header is sent,
      even a bearer header carrying a wrong token. */
  lemma QueryKeyAccepted(apiKey: string, authorization: Option<string>)
    requires Text.IsAscii(apiKey)
    requires authorization.Some? ==> Text.IsAscii(authorization.value)
    ensures CheckAuth(apiKey, authorization, Some(apiKey)) == Some(true)
  {
    if BearerToken(authorization).Some? {
      var t := BearerToken(authorization).value;
      assert forall i :: 0 <= i < |t| ==> t[i] == authorization.value[7 + i];
    }
  }

  /** A bearer header whose token contains a non-ASCII character makes `check_auth` raise
      before the query parameter is even looked at, so a correct `api_key` does not help. */
  lemma NonAsciiBearerRaises(apiKey: string, token: string, apiKeyParam: Option<string>)
    requires apiKey != ""
    requires !Text.IsAscii(token)
    ensures CheckAuth(apiKey, Some(BearerPrefix + token), apiKeyParam) == None
  {
    assert Text.StartsWith(BearerPrefix + token, BearerPrefix);
    assert (BearerPrefix + token)[7..] == token;
  }

  /** A header without the exact "Bearer " prefix (another scheme, or lower-case
      "bearer") is ignored, and only the query parameter can authenticate. */
  lemma OtherSchemesIgnored(apiKey: string, authorization: string, apiKeyParam: Option<string>)
    requires apiKey != ""
    requires !Text.StartsWith(authorization, BearerPrefix)
    ensures CheckAuth(apiKey, Some(authorization), apiKeyParam) == CheckAuth(apiKey, None, apiKeyParam)
  {
  }
}

=== FILE: cache.dfy ===
/** The snapshot cache (`DataCache`): the latest reconciled positions, the time of the
    last successful update, the last recorded error, and two operational counters.
    The lock only serialises access; as a value, every operation is a pure transition
    from one cache state to the next, or a view of one state. */
module SnapshotCache {
  import opened Wrappers
  import opened Reconciler

  /** A reading of the wall clock (`datetime.now()`), in microseconds. */
  type Instant = int

  datatype Cache = Cache(
    positions: seq<Position>,
    lastUpdate: Option<Instant>,
    error: Option<string>,
    loginCount: nat,
    refreshCount: nat)

  /** The cache as constructed: no positions, never updated, no error, zero counters. */
  const Fresh: Cache := Cache([], None, None, 0, 0)

  /** `update(positions)` at time `now`: replaces the positions wholesale, stamps the
      update time, clears the error and counts one refresh; the login counter is kept. */
  function Update(c: Cache, positions: seq<Position>, now: Instant): (c': Cache)
    ensures c'.positions == positions
    ensures c'.lastUpdate == Some(now)
    ensures c'.error == None
    ensures c'.refreshCount == c.refreshCount + 1
    ensures c'.loginCount == c.loginCount
  {
    c.(positions := positions, lastUpdate := Some(now), error := None, refreshCount := c.refreshCount + 1)
  }

  /** `set_error(error)`, with the message already converted by `str`: only the error
      changes; positions, update time and both counters stay as they were. */
  function SetError(c: Cache, message: string): (c': Cache)
    ensures c'.error == Some(message)
    ensures c'.positions == c.positions && c'.lastUpdate == c.lastUpdate
    ensures c'.loginCount == c.loginCount && c'.refreshCount == c.refreshCount
  {
    c.(error := Some(message))
  }

  /** `cache.login_count += 1`, done by the scraper at the start of every login attempt. */
  function CountLogin(c: Cache): (c': Cache)
    ensures c'.loginCount == c.loginCount + 1
    ensures c' == c.(loginCount := c'.loginCount)
  {
    c.(loginCount := c.loginCount + 1)
  }

  /** The dictionary `get()` returns: positions, their count, the update time, the cache
      age in seconds, and the error. */
  datatype SnapshotView = SnapshotView(
    positions: seq<Position>,
    count: nat,
    lastUpdate: Option<Instant>,
    cacheAgeSeconds: Option<real>,
    error: Option<string>)

  /** The dictionary `stats()` returns. */
  datatype StatsView = StatsView(
    loginCount: nat,
    refreshCount: nat,
    vehicleCount: nat,
    lastUpdate: Option<Instant>,
    error: Option<string>)

  /** `round(age, 1) if age else None`, without the rounding: the age in seconds, and
      `None` both before the first update and when the age is exactly zero. */
  function CacheAge(lastUpdate: Option<Instant>, now: Instant): (age: Option<real>)
    ensures lastUpdate.None? ==> age.None?
    ensures age.Some? ==> age.value != 0.0
    ensures lastUpdate.Some? && now != lastUpdate.value ==> age.Some?
    ensures age.Some? ==> age.value * 1000000.0 == (now - lastUpdate.value) as real
  {
    match lastUpdate
    case None => None
    case Some(t) =>
      var seconds := (now - t) as real / 1000000.0;
      if seconds != 0.0 then Some(seconds) else None
  }

  /** `get()` at time `now`: the cached positions with a count equal to their number, and
      the stored update time and error. */
  function Get(c: Cache, now: Instant): (v: SnapshotView)
    ensures v.positions == c.positions && v.count == |c.positions|
    ensures v.lastUpdate == c.lastUpdate && v.error == c.error
    ensures c.lastUpdate.None? ==> v.cacheAgeSeconds.None?
  {
    SnapshotView(c.positions, |c.positions|, c.lastUpdate, CacheAge(c.lastUpdate, now), c.error)
  }

  /** `stats()`: the counters, the number of cached positions, update time and error. */
  function Stats(c: Cache): (s: StatsView)
    ensures s.vehicleCount == |c.positions|
    ensures s.loginCount == c.loginCount && s.refreshCount == c.refreshCount
    ensures s.lastUpdate == c.lastUpdate && s.error == c.error
  {
    StatsView(c.loginCount, c.refreshCount, |c.positions|, c.lastUpdate, c.error)
  }

  /** Two reads without an update in between agree on everything but the age. */
  lemma GetIsStable(c: Cache, t1: Instant, t2: Instant)
    ensures Get(c, t1).positions == Get(c, t2).positions
    ensures Get(c, t1).count == Get(c, t2).count
    ensures Get(c, t1).lastUpdate == Get(c, t2).lastUpdate
    ensures Get(c, t1).error == Get(c, t2).error
  {
  }

  /** A read after an update shows exactly the positions that were stored, their number,
      the update time, no error, and an age of `later - now` microseconds. */
  lemma GetAfterUpdate(c: Cache, positions: seq<Position>, now: Instant, later: Instant)
    ensures var v := Get(Update(c, positions, now), later);
            && v.positions == positions && v.count == |positions|
            && v.lastUpdate == Some(now) && v.error == None
            && (later != now ==> v.cacheAgeSeconds == Some((later - now) as real / 1000000.0))
  {
  }

  /** Recording an error between two reads changes only the error the reads report. */
  lemma SetErrorKeepsSnapshot(c: Cache, message: string, now: Instant)
    ensures Get(SetError(c, message), now) == Get(c, now).(error := Some(message))
    ensures Stats(SetError(c, message)) == Stats(c).(error := Some(message))
  {
  }
}

=== FILE: json.dfy ===
/** JSON values as Python's `json` module hands them to the scraper, together with the
    few pieces of Python value semantics the scraper and the HTTP handler rely on:
    truthiness, dictionary-key equality, and comparison of a value with the integer 0. */
module JsonValue {
  import opened Wrappers

  /** A decoded JSON value. Integers and floats stay distinct, as `json.loads` keeps them. */
  datatype Json =
    | JNull
    | JBool(b: bool)
    | JInt(i: int)
    | JFloat(f: real)
    | JStr(s: string)
    | JArr(items: seq<Json>)
    | JObj(fields: map<string, Json>)

  /** The empty dictionary `{}` the scraper uses as a default. */
  const EmptyObject: Json := JObj(map[])

  /** Python truthiness: `None`, `False`, zero, and empty strings, lists and dicts are false. */
  predicate Truthy(j: Json) {
    match j
    case JNull => false
    case JBool(b) => b
    case JInt(i) => i != 0
    case JFloat(f) => f != 0.0
    case JStr(s) => |s| > 0
    case JArr(xs) => |xs| > 0
    case JObj(m) => |m| > 0
  }

  /** Name of the Python type of a decoded value, as it appears in exception messages. */
  function TypeName(j: Json): string {
    match j
    case JNull => "NoneType"
    case JBool(_) => "bool"
    case JInt(_) => "int"
    case JFloat(_) => "float"
    case JStr(_) => "str"
    case JArr(_) => "list"
    case JObj(_) => "dict"
  }

  /** The number a value stands for in arithmetic with an `int` (`bool` is a subclass of
      `int` in Python); `None` when Python raises `TypeError` instead. */
  function NumericValue(j: Json): (r: Option<real>)
    ensures r.Some? <==> (j.JBool? || j.JInt? || j.JFloat?)
    ensures j.JBool? ==> r == Some(if j.b then 1.0 else 0.0)
    ensures j.JInt? ==> r == Some(j.i as real)
    ensures j.JFloat? ==> r == Some(j.f)
  {
    match j
    case JBool(b) => Some(if b then 1.0 else 0.0)
    case JInt(i) => Some(i as real)
    case JFloat(f) => Some(f)
    case _ => None
  }

  /** Python's `j == 0`: true exactly for numeric values equal to zero; never raises. */
  predicate EqualsZero(j: Json) {
    NumericValue(j) == Some(0.0)
  }

  /** Python's `j > 0`: `None` when the comparison raises `TypeError` (strings, `None`,
      lists and dicts cannot be ordered against an `int`). */
  function GreaterThanZero(j: Json): (r: Option<bool>)
    ensures r.Some? <==> NumericValue(j).Some?
    ensures r.Some? ==> r.value == (NumericValue(j).value > 0.0)
    ensures r == Some(true) ==> !EqualsZero(j)
  {
    match NumericValue(j)
    case Some(v) => Some(v > 0.0)
    case None => None
  }

  /** A hashable value reduced to its equality class: Python's `True == 1 == 1.0`, so
      booleans, integers and floats of the same value are one dictionary key. */
  datatype Key = NullKey | NumKey(n: real) | StrKey(s: string)

  /** The dictionary key a value becomes; `None` for lists and dicts, which are unhashable. */
  function KeyOf(j: Json): (r: Option<Key>)
    ensures r.None? <==> (j.JArr? || j.JObj?)
    ensures j.JStr? ==> r == Some(StrKey(j.s))
    ensures j.JNull? ==> r == Some(NullKey)
    ensures NumericValue(j).Some? ==> r == Some(NumKey(NumericValue(j).value))
  {
    match j
    case JNull => Some(NullKey)
    case JStr(s) => Some(StrKey(s))
    case JArr(_) => None
    case JObj(_) => None
    case _ => Some(NumKey(NumericValue(j).value))
  }

  /** Python's `d.get(name)` on a decoded dictionary. */
  function Member(fields: map<string, Json>, name: string): (r: Option<Json>)
    ensures r.Some? <==> name in fields
    ensures r.Some? ==> r.value == fields[name]
  {
    if name in fields then Some(fields[name]) else None
  }

  /** Dictionary-key equality is Python's: numbers of equal value are the same key whatever
      their type (`True`, `1` and `1.0` are one key, `False` and `0` another), and two
      hashable values share a key only when both are `null`, both are equal strings, or
      both are numbers of equal value. In particular `1` and `"1"` are different keys. */
  lemma NumbersShareKeys(a: Json, b: Json)
    ensures NumericValue(a).Some? && NumericValue(a) == NumericValue(b) ==> KeyOf(a) == KeyOf(b)
    ensures KeyOf(a).Some? && KeyOf(a) == KeyOf(b) ==>
              (a.JNull? && b.JNull?) || (a.JStr? && b.JStr? && a.s == b.s) ||
              (NumericValue(a).Some? && NumericValue(a) == NumericValue(b))
    ensures KeyOf(JBool(true)) == KeyOf(JInt(1)) == KeyOf(JFloat(1.0))
    ensures KeyOf(JBool(false)) == KeyOf(JInt(0))
  {
  }
}

=== FILE: query.dfy ===
/** The read side of the HTTP handler: the health predicate of `/health`, and the
    filters behind `/positions/vehicle`, `/positions/moving` and `/positions/stopped`,
    each of which keeps the original order and recomputes `count`. */
module QueryService {
  import opened Wrappers
  import opened JsonValue
  import Text
  import Seqs
  import opened Reconciler
  import opened SnapshotCache

  /** `data["last_update"] and not data["error"]`: updated at least once, and the error
      is `None` or the empty string. */
  predicate IsHealthy(s: StatsView) {
    s.lastUpdate.Some? && (s.error.None? || s.error.value == "")
  }

  /** The "status" field of the `/health` body. */
  function HealthStatus(s: StatsView): (status: string)
    ensures status == "healthy" || status == "unhealthy"
    ensures status == "healthy" <==> IsHealthy(s)
  {
    if IsHealthy(s) then "healthy" else "unhealthy"
  }

  /** The HTTP status of `HEAD /health`: 200 when healthy, 503 otherwise. */
  function HeadHealthCode(s: StatsView): (code: int)
    ensures code == 200 || code == 503
    ensures code == 200 <==> IsHealthy(s)
  {
    if IsHealthy(s) then 200 else 503
  }

  /** `plate.upper() in p["license_plate"].upper()`. */
  predicate PlateMatches(plate: string, p: Position) {
    Text.Contains(Text.Upper(p.licensePlate), Text.Upper(plate))
  }

  /** `p["number"] == number`: only a string number equal to the query value matches. */
  predicate NumberMatches(number: string, p: Position) {
    p.number == JStr(number)
  }

  /** `not p["stand_still"] or p["speed"] > 0`, for records whose comparison succeeds. */
  predicate IsMoving(p: Position) {
    !Truthy(p.standStill) || GreaterThanZero(p.speed) == Some(true)
  }

  /** `p["stand_still"] and p["speed"] == 0`. */
  predicate IsStopped(p: Position) {
    Truthy(p.standStill) && EqualsZero(p.speed)
  }

  /** The comparison `p["speed"] > 0` is evaluated for this record and does not raise. */
  predicate MovingTestSucceeds(p: Position) {
    Truthy(p.standStill) ==> GreaterThanZero(p.speed).Some?
  }

  /** The `/positions/vehicle` selection: a non-empty `plate` wins (case-insensitive
      substring), otherwise a non-empty `number` (exact), otherwise no filtering. */
  function SelectVehicles(ps: seq<Position>, plate: Option<string>, number: Option<string>): (r: seq<Position>)
    ensures Seqs.IsSubsequence(r, ps)
    ensures plate.Some? && plate.value != "" ==>
              forall p :: p in r <==> p in ps && PlateMatches(plate.value, p)
    ensures plate.Some? && plate.value != "" ==>
              forall p :: p in ps ==> multiset(r)[p] == (if PlateMatches(plate.value, p) then multiset(ps)[p] else 0)
    ensures (plate.None? || plate.value == "") && number.Some? && number.value != "" ==>
              forall p :: p in r <==> p in ps && NumberMatches(number.value, p)
    ensures (plate.None? || plate.value == "") && number.Some? && number.value != "" ==>
              forall p :: p in ps ==> multiset(r)[p] == (if NumberMatches(number.value, p) then multiset(ps)[p] else 0)
    ensures (plate.None? || plate.value == "") && (number.None? || number.value == "") ==> r == ps
  {
    if plate.Some? && plate.value != "" then
      Seqs.Filter(ps, p => PlateMatches(plate.value, p))
    else if number.Some? && number.value != "" then
      Seqs.Filter(ps, p => NumberMatches(number.value, p))
    else
      Seqs.SubsequenceOfSelf(ps);
      ps
  }

  /** `[p for p in ps if not p["stand_still"] or p["speed"] > 0]`, evaluated left to
      right: `None` when some record with a truthy stand-still has a speed that cannot
      be compared with 0 (the comprehension raises `TypeError`). */
  function MovingPositions(ps: seq<Position>): (r: Option<seq<Position>>)
    ensures r.Some? <==> forall i :: 0 <= i < |ps| ==> MovingTestSucceeds(ps[i])
    ensures r.Some? ==> r.value == Seqs.Filter(ps, IsMoving)
    decreases |ps|
  {
    if |ps| == 0 then Some([])
    else
      assert forall i :: 1 <= i < |ps| ==> ps[1..][i - 1] == ps[i];
      if !MovingTestSucceeds(ps[0]) then None
      else
        match MovingPositions(ps[1..])
        case None => None
        case Some(rest) => Some(if IsMoving(ps[0]) then [ps[0]] + rest else rest)
  }

  /** `[p for p in ps if p["stand_still"] and p["speed"] == 0]`. */
  function StoppedPositions(ps: seq<Position>): (r: seq<Position>)
    ensures Seqs.IsSubsequence(r, ps)
    ensures forall p :: p in r <==> p in ps && IsStopped(p)
    ensures forall p :: p in ps ==> multiset(r)[p] == (if IsStopped(p) then multiset(ps)[p] else 0)
  {
    Seqs.Filter(ps, IsStopped)
  }

  /** The `get()` dictionary with its positions replaced by `ps` and `count` recomputed;
      update time, age and error are left as they were. */
  function WithPositions(v: SnapshotView, ps: seq<Position>): (r: SnapshotView)
    ensures r.positions == ps && r.count == |ps|
    ensures r.lastUpdate == v.lastUpdate && r.cacheAgeSeconds == v.cacheAgeSeconds && r.error == v.error
  {
    v.(positions := ps, count := |ps|)
  }

  /** The body of `/positions/vehicle`. */
  function VehicleView(v: SnapshotView, plate: Option<string>, number: Option<string>): (r: SnapshotView)
    ensures r.positions == SelectVehicles(v.positions, plate, number) && r.count == |r.positions|
    ensures r.lastUpdate == v.lastUpdate && r.cacheAgeSeconds == v.cacheAgeSeconds && r.error == v.error
  {
    WithPositions(v, SelectVehicles(v.positions, plate, number))
  }

  /** The body of `/positions/moving`, or `None` when the filter raises. */
  function MovingView(v: SnapshotView): (r: Option<SnapshotView>)
    ensures r.Some? <==> forall i :: 0 <= i < |v.positions| ==> MovingTestSucceeds(v.positions[i])
    ensures r.Some? ==> r.value.count == |r.value.positions|
    ensures r.Some? ==> Seqs.IsSubsequence(r.value.positions, v.positions)
    ensures r.Some? ==> forall p :: p in r.value.positions <==> p in v.positions && IsMoving(p)
    ensures r.Some? ==> forall p :: p in v.positions ==>
              multiset(r.value.positions)[p] == (if IsMoving(p) then multiset(v.positions)[p] else 0)
  {
    match MovingPositions(v.positions)
    case None => None
    case Some(ps) => Some(WithPositions(v, ps))
  }

  /** The body of `/positions/stopped`. */
  function StoppedView(v: SnapshotView): (r: SnapshotView)
    ensures r.count == |r.positions| && Seqs.IsSubsequence(r.positions, v.positions)
    ensures forall p :: p in r.positions <==> p in v.positions && IsStopped(p)
    ensures forall p :: p in v.positions ==>
              multiset(r.positions)[p] == (if IsStopped(p) then multiset(v.positions)[p] else 0)
  {
    WithPositions(v, StoppedPositions(v.positions))
  }

  /** No record is both moving and stopped, so the two lists never share a record and
      their counts add up to at most the number of cached records. */
  lemma MovingAndStoppedDisjoint(v: SnapshotView)
    requires MovingView(v).Some?
    ensures forall p :: p in MovingView(v).value.positions ==> p !in StoppedView(v).positions
    ensures MovingView(v).value.count + StoppedView(v).count <= |v.positions|
  {
    Seqs.DisjointFilterCounts(v.positions, IsMoving, IsStopped);
  }

  /** When every speed is a number that is not negative, each record is either moving or
      stopped, so the two counts add up to exactly the number of cached records. In
      particular a record with a false stand-still and speed 0 counts as moving. */
  lemma MovingAndStoppedPartition(v: SnapshotView)
    requires forall i :: 0 <= i < |v.positions| ==>
               NumericValue(v.positions[i].speed).Some? && NumericValue(v.positions[i].speed).value >= 0.0
    ensures MovingView(v).Some?
    ensures MovingView(v).value.count + StoppedView(v).count == |v.positions|
  {
    Seqs.PartitionFilterCounts(v.positions, IsMoving, IsStopped);
  }

  /** When no record has a truthy stand-still, `/positions/moving` lists every cached
      record, in order, whatever their speeds. */
  lemma NothingStandingStillAllMoving(v: SnapshotView)
    requires forall i :: 0 <= i < |v.positions| ==> !Truthy(v.positions[i].standStill)
    ensures MovingView(v).Some? && MovingView(v).value.positions == v.positions
  {
    assert forall i :: 0 <= i < |v.positions| ==> MovingTestSucceeds(v.positions[i]);
    Seqs.FilterKeepsAll(v.positions, IsMoving);
  }

  /** A record with a truthy stand-still and a text speed makes `/positions/moving` raise,
      while `/positions/stopped` simply leaves it out. */
  lemma TextSpeedBreaksMovingOnly(v: SnapshotView, i: int)
    requires 0 <= i < |v.positions|
    requires Truthy(v.positions[i].standStill) && v.positions[i].speed.JStr?
    ensures MovingView(v).None?
    ensures v.positions[i] !in StoppedView(v).positions
  {
  }
}

=== FILE: reconciler.dfy ===
/** The reconciler (`WebfleetScraper.get_positions`): merges the intercepted "objects"
    list (identity and static attributes of each vehicle) with the intercepted
    "telemetry" list (live attributes keyed by the same `objectId`) into one position
    record per object entry.

    Raw records are typed records of `Option<Json>`: `None` is a key that is absent from
    the decoded dictionary, `Some(JNull)` a key present with value `null`, which the code
    treats differently. The code raises (`KeyError`, `TypeError`, `AttributeError`) on
    several malformed inputs; each such exception is an `Err` here. */
module Reconciler {
  import opened Wrappers
  import opened JsonValue
  import Text
  import Seqs

  /** One entry of the intercepted "objects" list, reduced to the keys the scraper reads. */
  datatype RawObject = RawObject(
    objectId: Option<Json>,
    number: Option<Json>,
    name: Option<Json>,
    licensePlate: Option<Json>,
    vehicleType: Option<Json>,        // the "type" key
    position: Option<Json>,
    locationDescription: Option<Json>,
    odometer: Option<Json>,           // hundredths of a kilometre
    lastGpsTime: Option<Json>)

  /** One entry of the intercepted "telemetry" list, reduced to the keys the scraper reads. */
  datatype RawTelemetry = RawTelemetry(
    objectId: Option<Json>,
    position: Option<Json>,
    speed: Option<Json>,
    ignition: Option<Json>,
    standStill: Option<Json>)

  /** The `{}` the scraper substitutes when an object has no telemetry entry. */
  const NoTelemetry: RawTelemetry := RawTelemetry(None, None, None, None, None)

  /** One canonical position record, field for field the dictionary the scraper builds. */
  datatype Position = Position(
    objectId: Json,
    number: Json,
    name: Json,
    licensePlate: string,
    vehicleType: Json,
    latitude: Json,
    longitude: Json,
    address: Json,
    speed: Json,
    ignition: Json,
    standStill: Json,
    lastGpsTime: Json,
    odometerKm: real)

  /** The exceptions reconciliation can raise. */
  datatype ReconcileError =
    | MissingObjectId                     // KeyError: an entry has no "objectId"
    | UnhashableObjectId(id: Json)        // TypeError: the id is a list or a dict
    | PlateNotText(plate: Json)           // AttributeError: `.strip()` on a non-string
    | AddressNotReadable(container: Json) // AttributeError: `.get` on a non-dict
    | OdometerNotNumeric(odometer: Json)  // TypeError: division of a non-number

  /** `str(e)` for the raised exception, as the supervisor records it in the cache. */
  function Message(e: ReconcileError): (m: string)
    ensures |m| > 0
  {
    match e
    case MissingObjectId => "'objectId'"
    case UnhashableObjectId(id) => "unhashable type: '" + TypeName(id) + "'"
    case PlateNotText(p) => "'" + TypeName(p) + "' object has no attribute 'strip'"
    case AddressNotReadable(c) => "'" + TypeName(c) + "' object has no attribute 'get'"
    case OdometerNotNumeric(o) => "unsupported operand type(s) for /: '" + TypeName(o) + "' and 'int'"
  }

  /** `x or []` applied to a captured list: a list never captured (`None`) reads as empty. */
  function CapturedOrEmpty<T>(captured: Option<seq<T>>): (r: seq<T>)
    ensures captured.None? ==> r == []
    ensures captured.Some? ==> r == captured.value
  {
    captured.GetOr([])
  }

  /** `entry["objectId"]` used as a dictionary key: raises when the key is absent or the
      id is unhashable. */
  function IdKey(id: Option<Json>): (r: Result<Key, ReconcileError>)
    ensures r.Ok? <==> id.Some? && KeyOf(id.value).Some?
    ensures r.Ok? ==> r.value == KeyOf(id.value).value
  {
    match id
    case None => Err(MissingObjectId)
    case Some(j) =>
      match KeyOf(j)
      case None => Err(UnhashableObjectId(j))
      case Some(k) => Ok(k)
  }

  /** Reference definition of "last write wins": the last telemetry entry whose id is
      the key `k`, if any. */
  function LastWithKey(ts: seq<RawTelemetry>, k: Key): (r: Option<RawTelemetry>)
    ensures r.None? ==> forall i :: 0 <= i < |ts| ==> IdKey(ts[i].objectId) != Ok(k)
    ensures r.Some? ==> exists i :: 0 <= i < |ts| && ts[i] == r.value && IdKey(ts[i].objectId) == Ok(k)
                           && forall j :: i < j < |ts| ==> IdKey(ts[j].objectId) != Ok(k)
    decreases |ts|
  {
    if |ts| == 0 then None
    else if IdKey(ts[|ts| - 1].objectId) == Ok(k) then Some(ts[|ts| - 1])
    else
      var r := LastWithKey(ts[..|ts| - 1], k);
      assert forall i :: 0 <= i < |ts| - 1 ==> ts[..|ts| - 1][i] == ts[i];
      r
  }

  /** `{t["objectId"]: t for t in telemetry}`, built entry by entry in list order; the
      first entry without a usable id raises. */
  function IndexTelemetry(ts: seq<RawTelemetry>): (r: Result<map<Key, RawTelemetry>, ReconcileError>)
    ensures r.Ok? <==> forall i :: 0 <= i < |ts| ==> IdKey(ts[i].objectId).Ok?
    ensures r.Err? ==> exists i :: 0 <= i < |ts| && IdKey(ts[i].objectId) == Err(r.error)
                           && forall j :: 0 <= j < i ==> IdKey(ts[j].objectId).Ok?
    ensures r.Ok? ==> forall k :: (k in r.value <==> LastWithKey(ts, k).Some?)
    ensures r.Ok? ==> forall k :: k in r.value ==> r.value[k] == LastWithKey(ts, k).value
    decreases |ts|
  {
    if |ts| == 0 then Ok(map[])
    else
      var init := ts[..|ts| - 1];
      assert forall i :: 0 <= i < |ts| - 1 ==> init[i] == ts[i];
      match IndexTelemetry(init)
      case Err(e) => Err(e)
      case Ok(m) =>
        match IdKey(ts[|ts| - 1].objectId)
        case Err(e) => Err(e)
        case Ok(k) => Ok(m[k := ts[|ts| - 1]])
  }

  /** `telem.get("position", obj.get("position", {})) or {}`: telemetry's position if the
      key is present at all, otherwise the object's own, and `{}` for any falsy value. */
  function ResolvePosition(telem: RawTelemetry, obj: RawObject): (pos: Json)
    ensures Truthy(pos) || pos == EmptyObject
    ensures telem.position.Some? && Truthy(telem.position.value) ==> pos == telem.position.value
    ensures telem.position.Some? && !Truthy(telem.position.value) ==> pos == EmptyObject
    ensures telem.position.None? && obj.position.Some? && Truthy(obj.position.value) ==> pos == obj.position.value
    ensures telem.position.None? && (obj.position.None? || !Truthy(obj.position.value)) ==> pos == EmptyObject
  {
    var raw := telem.position.GetOr(obj.position.GetOr(EmptyObject));
    if Truthy(raw) then raw else EmptyObject
  }

  /** `container.get("address", "")`, which raises unless the container is a dict. */
  function AddressIn(container: Json): (r: Result<Json, ReconcileError>)
    ensures r.Ok? <==> container.JObj?
    ensures r.Ok? && "address" !in container.fields ==> r.value == JStr("")
    ensures r.Ok? && "address" in container.fields ==> r.value == container.fields["address"]
  {
    match container
    case JObj(fields) => Ok(Member(fields, "address").GetOr(JStr("")))
    case _ => Err(AddressNotReadable(container))
  }

  /** The address: from `pos["location"]` when the resolved position is a dict, otherwise
      from the object's `locationDescription`. A missing container reads as `{}`, so the
      address is "" then; a container that is present but not a dict raises. */
  function ResolveAddress(pos: Json, obj: RawObject): (r: Result<Json, ReconcileError>)
    ensures pos.JObj? ==> (r.Ok? <==> "location" !in pos.fields || pos.fields["location"].JObj?)
    ensures !pos.JObj? ==> (r.Ok? <==> obj.locationDescription.None? || obj.locationDescription.value.JObj?)
    ensures r.Err? ==> r.error.AddressNotReadable?
    ensures pos.JObj? && "location" in pos.fields && pos.fields["location"].JObj? ==>
              r == Ok(if "address" in pos.fields["location"].fields
                      then pos.fields["location"].fields["address"] else JStr(""))
    ensures pos.JObj? && "location" !in pos.fields ==> r == Ok(JStr(""))
    ensures !pos.JObj? && obj.locationDescription.Some? && obj.locationDescription.value.JObj? ==>
              r == Ok(if "address" in obj.locationDescription.value.fields
                      then obj.locationDescription.value.fields["address"] else JStr(""))
    ensures !pos.JObj? && obj.locationDescription.None? ==> r == Ok(JStr(""))
  {
    if pos.JObj? then AddressIn(Member(pos.fields, "location").GetOr(EmptyObject))
    else AddressIn(obj.locationDescription.GetOr(EmptyObject))
  }

  /** `pos.get(name) if isinstance(pos, dict) else None`. */
  function PositionField(pos: Json, name: string): (r: Json)
    ensures !pos.JObj? ==> r == JNull
    ensures pos.JObj? && name !in pos.fields ==> r == JNull
    ensures pos.JObj? && name in pos.fields ==> r == pos.fields[name]
  {
    if pos.JObj? then Member(pos.fields, name).GetOr(JNull) else JNull
  }

  /** `obj.get("licensePlate", "").strip()`, which raises on a non-string plate. */
  function StrippedPlate(plate: Option<Json>): (r: Result<string, ReconcileError>)
    ensures r.Ok? <==> plate.None? || plate.value.JStr?
    ensures plate.None? ==> r == Ok("")
    ensures r.Ok? && plate.Some? ==> Text.IsStripped(plate.value.s, r.value)
  {
    match plate.GetOr(JStr(""))
    case JStr(s) => Ok(Text.Strip(s))
    case other => Err(PlateNotText(other))
  }

  /** `obj.get("odometer", 0) / 100`: kilometres from hundredths, raising on non-numbers. */
  function OdometerKm(odometer: Option<Json>): (r: Result<real, ReconcileError>)
    ensures r.Ok? <==> odometer.None? || NumericValue(odometer.value).Some?
    ensures odometer.None? ==> r == Ok(0.0)
    ensures r.Ok? && odometer.Some? ==> r.value * 100.0 == NumericValue(odometer.value).value
  {
    var raw := odometer.GetOr(JInt(0));
    match NumericValue(raw)
    case Some(v) => Ok(v / 100.0)
    case None => Err(OdometerNotNumeric(raw))
  }

  /** The dictionary literal built for one object entry `obj` (whose id is `id`) and the
      telemetry entry `telem` matched to it (`NoTelemetry` when there is none). Errors
      surface in the order the literal evaluates its fields: plate, address, odometer. */
  function RecordFor(id: Json, obj: RawObject, telem: RawTelemetry): (r: Result<Position, ReconcileError>)
    ensures r.Ok? <==> StrippedPlate(obj.licensePlate).Ok?
                       && ResolveAddress(ResolvePosition(telem, obj), obj).Ok?
                       && OdometerKm(obj.odometer).Ok?
    ensures r.Ok? ==> r.value.objectId == id
    ensures r.Err? && StrippedPlate(obj.licensePlate).Err? ==> r == Err(StrippedPlate(obj.licensePlate).error)
    ensures StrippedPlate(obj.licensePlate).Ok? && ResolveAddress(ResolvePosition(telem, obj), obj).Err? ==>
              r == Err(ResolveAddress(ResolvePosition(telem, obj), obj).error)
    ensures StrippedPlate(obj.licensePlate).Ok? && ResolveAddress(ResolvePosition(telem, obj), obj).Ok?
            && OdometerKm(obj.odometer).Err? ==>
              r == Err(OdometerKm(obj.odometer).error)
    // the fields copied from the object, with their defaults
    ensures r.Ok? ==> r.value.number == obj.number.GetOr(JStr(""))
    ensures r.Ok? ==> r.value.name == obj.name.GetOr(JStr(""))
    ensures r.Ok? ==> r.value.vehicleType == obj.vehicleType.GetOr(JStr(""))
    ensures r.Ok? ==> r.value.licensePlate == StrippedPlate(obj.licensePlate).value
    ensures r.Ok? ==> r.value.odometerKm == OdometerKm(obj.odometer).value
    // the fields taken from the matched telemetry, with their defaults
    ensures r.Ok? ==> r.value.speed == telem.speed.GetOr(JInt(0))
    ensures r.Ok? ==> r.value.ignition == telem.ignition.GetOr(JStr("UNKNOWN"))
    ensures r.Ok? ==> r.value.standStill == telem.standStill.GetOr(JBool(false))
    // the fields read from the resolved position
    ensures r.Ok? ==> r.value.latitude == PositionField(ResolvePosition(telem, obj), "latitude")
    ensures r.Ok? ==> r.value.longitude == PositionField(ResolvePosition(telem, obj), "longitude")
    ensures r.Ok? ==> r.value.address == ResolveAddress(ResolvePosition(telem, obj), obj).value
    ensures r.Ok? && Truthy(PositionField(ResolvePosition(telem, obj), "time")) ==>
              r.value.lastGpsTime == PositionField(ResolvePosition(telem, obj), "time")
    ensures r.Ok? && !Truthy(PositionField(ResolvePosition(telem, obj), "time")) ==>
              r.value.lastGpsTime == obj.lastGpsTime.GetOr(JStr(""))
  {
    var pos := ResolvePosition(telem, obj);
    var plate :- StrippedPlate(obj.licensePlate);
    var address :- ResolveAddress(pos, obj);
    var km :- OdometerKm(obj.odometer);
    var gpsTime := PositionField(pos, "time");
    Ok(Position(
      objectId := id,
      number := obj.number.GetOr(JStr("")),
      name := obj.name.GetOr(JStr("")),
      licensePlate := plate,
      vehicleType := obj.vehicleType.GetOr(JStr("")),
      latitude := PositionField(pos, "latitude"),
      longitude := PositionField(pos, "longitude"),
      address := address,
      speed := telem.speed.GetOr(JInt(0)),
      ignition := telem.ignition.GetOr(JStr("UNKNOWN")),
      standStill := telem.standStill.GetOr(JBool(false)),
      lastGpsTime := if Truthy(gpsTime) then gpsTime else obj.lastGpsTime.GetOr(JStr("")),
      odometerKm := km))
  }

  /** One iteration of the loop: `obj["objectId"]`, the lookup `telem_map.get(id, {})`,
      then the record. */
  function ReconcileOne(obj: RawObject, index: map<Key, RawTelemetry>): (r: Result<Position, ReconcileError>)
    ensures r.Ok? ==> IdKey(obj.objectId).Ok?
    ensures IdKey(obj.objectId).Err? ==> r == Err(IdKey(obj.objectId).error)
    ensures r.Ok? ==> r.value.objectId == obj.objectId.value
  {
    var key :- IdKey(obj.objectId);
    RecordFor(obj.objectId.value, obj, if key in index then index[key] else NoTelemetry)
  }

  /** The loop over the objects list: one record per entry, in order, stopping at the
      first entry that raises. */
  function ReconcileAll(objs: seq<RawObject>, index: map<Key, RawTelemetry>): (r: Result<seq<Position>, ReconcileError>)
    ensures r.Ok? <==> forall i :: 0 <= i < |objs| ==> ReconcileOne(objs[i], index).Ok?
    ensures r.Ok? ==> |r.value| == |objs|
    ensures r.Ok? ==> forall i :: 0 <= i < |objs| ==> r.value[i] == ReconcileOne(objs[i], index).value
    ensures r.Err? ==> exists i :: 0 <= i < |objs| && ReconcileOne(objs[i], index) == Err(r.error)
                           && forall j :: 0 <= j < i ==> ReconcileOne(objs[j], index).Ok?
    decreases |objs|
  {
    Seqs.MapUntilError(objs, o => ReconcileOne(o, index))
  }

  /** `get_positions`: nothing captured, or an empty objects list, yields no records
      whatever the telemetry holds; otherwise the telemetry index is built first and then
      one record is produced per object entry. */
  function Reconcile(objects: Option<seq<RawObject>>, telemetry: Option<seq<RawTelemetry>>)
    : (r: Result<seq<Position>, ReconcileError>)
    ensures |CapturedOrEmpty(objects)| == 0 ==> r == Ok([])
    ensures r.Ok? ==> |r.value| == |CapturedOrEmpty(objects)|
  {
    var objs := CapturedOrEmpty(objects);
    if |objs| == 0 then Ok([])
    else
      var index :- IndexTelemetry(CapturedOrEmpty(telemetry));
      ReconcileAll(objs, index)
  }
}

module ReconcilerLaws {
  import opened Wrappers
  import opened JsonValue
  import Text
  import opened Reconciler

  /** The telemetry entry an object's record is built from: the last entry of the list
      with the same id, or the empty `{}` when no entry has that id. */
  function TelemetryFor(ts: seq<RawTelemetry>, k: Key): (t: RawTelemetry)
    ensures (forall j :: 0 <= j < |ts| ==> IdKey(ts[j].objectId) != Ok(k)) ==> t == NoTelemetry
  {
    LastWithKey(ts, k).GetOr(NoTelemetry)
  }

  /** Every record of a successful reconciliation is the record of the object at the same
      index, built from the LAST telemetry entry carrying that object's id. */
  lemma RecordUsesLastTelemetry(objects: Option<seq<RawObject>>, telemetry: Option<seq<RawTelemetry>>, i: int)
    requires Reconcile(objects, telemetry).Ok?
    requires 0 <= i < |CapturedOrEmpty(objects)|
    ensures IdKey(CapturedOrEmpty(objects)[i].objectId).Ok?
    ensures var o := CapturedOrEmpty(objects)[i];
            RecordFor(o.objectId.value, o, TelemetryFor(CapturedOrEmpty(telemetry), IdKey(o.objectId).value))
              == Ok(Reconcile(objects, telemetry).value[i])
  {
    var objs := CapturedOrEmpty(objects);
    var index := IndexTelemetry(CapturedOrEmpty(telemetry)).value;
    assert Reconcile(objects, telemetry) == ReconcileAll(objs, index);
    assert ReconcileOne(objs[i], index).Ok?;
  }

  /** For every object entry there is exactly one record, in the same order: it carries
      the entry's id, its licence plate without surrounding whitespace, and its odometer
      converted from hundredths to kilometres (0 when absent). */
  lemma RecordsFollowObjects(objects: Option<seq<RawObject>>, telemetry: Option<seq<RawTelemetry>>)
    requires Reconcile(objects, telemetry).Ok?
    ensures var objs := CapturedOrEmpty(objects);
            var ps := Reconcile(objects, telemetry).value;
            && |ps| == |objs|
            && forall i :: 0 <= i < |objs| ==>
                 && objs[i].objectId == Some(ps[i].objectId)
                 && (objs[i].licensePlate.None? ==> ps[i].licensePlate == "")
                 && (objs[i].licensePlate.Some? ==>
                       objs[i].licensePlate.value.JStr?
                       && Text.IsStripped(objs[i].licensePlate.value.s, ps[i].licensePlate))
                 && (objs[i].odometer.None? ==> ps[i].odometerKm == 0.0)
                 && (objs[i].odometer.Some? ==>
                       NumericValue(objs[i].odometer.value).Some?
                       && ps[i].odometerKm * 100.0 == NumericValue(objs[i].odometer.value).value)
  {
    var objs := CapturedOrEmpty(objects);
    forall i | 0 <= i < |objs|
      ensures objs[i].objectId == Some(Reconcile(objects, telemetry).value[i].objectId)
    {
      RecordUsesLastTelemetry(objects, telemetry, i);
    }
    forall i | 0 <= i < |objs|
      ensures var p := Reconcile(objects, telemetry).value[i];
              && (objs[i].licensePlate.None? ==> p.licensePlate == "")
              && (objs[i].licensePlate.Some? ==>
                    objs[i].licensePlate.value.JStr?
                    && Text.IsStripped(objs[i].licensePlate.value.s, p.licensePlate))
              && (objs[i].odometer.None? ==> p.odometerKm == 0.0)
              && (objs[i].odometer.Some? ==>
                    NumericValue(objs[i].odometer.value).Some?
                    && p.odometerKm * 100.0 == NumericValue(objs[i].odometer.value).value)
    {
      RecordUsesLastTelemetry(objects, telemetry, i);
    }
  }

  /** An object no telemetry entry refers to still gets its record, with speed 0,
      ignition "UNKNOWN" and stand-still false. */
  lemma MissingTelemetryDefaults(objects: Option<seq<RawObject>>, telemetry: Option<seq<RawTelemetry>>, i: int)
    requires Reconcile(objects, telemetry).Ok?
    requires 0 <= i < |CapturedOrEmpty(objects)|
    requires var ts := CapturedOrEmpty(telemetry);
             forall j :: 0 <= j < |ts| ==> IdKey(ts[j].objectId) != IdKey(CapturedOrEmpty(objects)[i].objectId)
    ensures var p := Reconcile(objects, telemetry).value[i];
            p.speed == JInt(0) && p.ignition == JStr("UNKNOWN") && p.standStill == JBool(false)
  {
    RecordUsesLastTelemetry(objects, telemetry, i);
  }

  /** When several telemetry entries carry an object's id, the record takes speed,
      ignition and stand-still from the last of them (each defaulting as above). */
  lemma LastTelemetryWins(objects: Option<seq<RawObject>>, telemetry: Option<seq<RawTelemetry>>, i: int, j: int)
    requires Reconcile(objects, telemetry).Ok?
    requires 0 <= i < |CapturedOrEmpty(objects)|
    requires 0 <= j < |CapturedOrEmpty(telemetry)|
    requires var ts := CapturedOrEmpty(telemetry);
             var id := IdKey(CapturedOrEmpty(objects)[i].objectId);
             IdKey(ts[j].objectId) == id && forall j' :: j < j' < |ts| ==> IdKey(ts[j'].objectId) != id
    ensures var p := Reconcile(objects, telemetry).value[i];
            var t := CapturedOrEmpty(telemetry)[j];
            && p.speed == t.speed.GetOr(JInt(0))
            && p.ignition == t.ignition.GetOr(JStr("UNKNOWN"))
            && p.standStill == t.standStill.GetOr(JBool(false))
  {
    RecordUsesLastTelemetry(objects, telemetry, i);
    var ts := CapturedOrEmpty(telemetry);
    var k := IdKey(CapturedOrEmpty(objects)[i].objectId).value;
    var last := LastWithKey(ts, k);
    assert last.Some?;
    var m :| 0 <= m < |ts| && ts[m] == last.value && IdKey(ts[m].objectId) == Ok(k)
             && forall j' :: m < j' < |ts| ==> IdKey(ts[j'].objectId) != Ok(k);
    assert m == j;
  }

  /** A telemetry entry whose "position" is present but null hides the object's own
      position: `or {}` turns the null into an empty dict, so coordinates are null and
      the address is empty even when the object entry carries a full position. */
  lemma NullTelemetryPositionHidesObjectPosition(id: Json, obj: RawObject, telem: RawTelemetry)
    requires telem.position == Some(JNull)
    requires RecordFor(id, obj, telem).Ok?
    ensures var p := RecordFor(id, obj, telem).value;
            && p.latitude == JNull && p.longitude == JNull && p.address == JStr("")
            && p.lastGpsTime == obj.lastGpsTime.GetOr(JStr(""))
  {
  }

  /** A non-empty position dict in the matched telemetry supplies the record's coordinates
      and, when its "time" is truthy, the GPS time; otherwise the object's `lastGpsTime`. */
  lemma TelemetryPositionLocatesRecord(id: Json, obj: RawObject, telem: RawTelemetry, f: map<string, Json>)
    requires telem.position == Some(JObj(f)) && |f| > 0
    requires RecordFor(id, obj, telem).Ok?
    ensures var p := RecordFor(id, obj, telem).value;
            && p.latitude == Member(f, "latitude").GetOr(JNull)
            && p.longitude == Member(f, "longitude").GetOr(JNull)
            && ("time" in f && Truthy(f["time"]) ==> p.lastGpsTime == f["time"])
            && (!("time" in f && Truthy(f["time"])) ==> p.lastGpsTime == obj.lastGpsTime.GetOr(JStr("")))
  {
    assert ResolvePosition(telem, obj) == JObj(f);
  }

  /** When the matched telemetry has no "position" key, a non-empty position dict on the
      object entry supplies the coordinates and GPS time instead. */
  lemma ObjectPositionLocatesRecord(id: Json, obj: RawObject, telem: RawTelemetry, f: map<string, Json>)
    requires telem.position.None? && obj.position == Some(JObj(f)) && |f| > 0
    requires RecordFor(id, obj, telem).Ok?
    ensures var p := RecordFor(id, obj, telem).value;
            && p.latitude == Member(f, "latitude").GetOr(JNull)
            && p.longitude == Member(f, "longitude").GetOr(JNull)
            && ("time" in f && Truthy(f["time"]) ==> p.lastGpsTime == f["time"])
            && (!("time" in f && Truthy(f["time"])) ==> p.lastGpsTime == obj.lastGpsTime.GetOr(JStr("")))
  {
    assert ResolvePosition(telem, obj) == JObj(f);
  }

  /** The object's "locationDescription" address is consulted only when the chosen raw
      position is a truthy value that is not a dict (a non-empty list or string, `true`, a
      non-zero number); in that case coordinates are null. */
  lemma LocationDescriptionOnlyForNonDictPosition(id: Json, obj: RawObject, telem: RawTelemetry)
    requires RecordFor(id, obj, telem).Ok?
    ensures var raw := telem.position.GetOr(obj.position.GetOr(EmptyObject));
            var p := RecordFor(id, obj, telem).value;
            && (Truthy(raw) && !raw.JObj? ==>
                  p.address == AddressIn(obj.locationDescription.GetOr(EmptyObject)).value
                  && p.latitude == JNull && p.longitude == JNull)
            && (!Truthy(raw) ==> p.address == JStr(""))
            && (raw.JObj? && Truthy(raw) ==>
                  p.address == AddressIn(Member(raw.fields, "location").GetOr(EmptyObject)).value)
  {
  }

  /** Duplicate object entries are not merged: each yields its own, identical, record. */
  lemma DuplicateObjectsKept(o: RawObject, telemetry: Option<seq<RawTelemetry>>)
    requires Reconcile(Some([o, o]), telemetry).Ok?
    ensures var ps := Reconcile(Some([o, o]), telemetry).value;
            |ps| == 2 && ps[0] == ps[1]
  {
    var ps := Reconcile(Some([o, o]), telemetry).value;
    RecordUsesLastTelemetry(Some([o, o]), telemetry, 0);
    RecordUsesLastTelemetry(Some([o, o]), telemetry, 1);
  }

  /** A telemetry entry without a usable id makes the whole capture raise as soon as
      there is at least one object to reconcile. */
  lemma BadTelemetryIdRaises(objects: Option<seq<RawObject>>, telemetry: Option<seq<RawTelemetry>>, j: int)
    requires |CapturedOrEmpty(objects)| > 0
    requires 0 <= j < |CapturedOrEmpty(telemetry)|
    requires IdKey(CapturedOrEmpty(telemetry)[j].objectId).Err?
    ensures Reconcile(objects, telemetry).Err?
  {
  }

  /** A dict position whose "location", if present, is itself a dict. */
  predicate ReadablePosition(pos: Json) {
    pos.JObj? ==> ("location" in pos.fields ==> pos.fields["location"].JObj?)
  }

  /** A raw position value the scraper can always read: absent, null, or a readable dict. */
  predicate WellFormedPosition(pos: Option<Json>) {
    pos.None? || pos.value.JNull? || (pos.value.JObj? && ReadablePosition(pos.value))
  }

  /** A telemetry entry of the shape the portal sends. */
  predicate WellFormedTelemetry(t: RawTelemetry) {
    IdKey(t.objectId).Ok? && WellFormedPosition(t.position)
  }

  /** An object entry of the shape the portal sends. */
  predicate WellFormedObject(o: RawObject) {
    && IdKey(o.objectId).Ok?
    && (o.licensePlate.None? || o.licensePlate.value.JStr?)
    && (o.odometer.None? || NumericValue(o.odometer.value).Some?)
    && WellFormedPosition(o.position)
    && (o.locationDescription.None? || o.locationDescription.value.JObj?)
  }

  /** On well-formed captures reconciliation never raises, and yields one record per
      object entry. */
  lemma WellFormedCaptureReconciles(objects: Option<seq<RawObject>>, telemetry: Option<seq<RawTelemetry>>)
    requires forall o :: o in CapturedOrEmpty(objects) ==> WellFormedObject(o)
    requires forall t :: t in CapturedOrEmpty(telemetry) ==> WellFormedTelemetry(t)
    ensures Reconcile(objects, telemetry).Ok?
    ensures |Reconcile(objects, telemetry).value| == |CapturedOrEmpty(objects)|
  {
    var objs := CapturedOrEmpty(objects);
    var ts := CapturedOrEmpty(telemetry);
    if |objs| > 0 {
      assert forall j :: 0 <= j < |ts| ==> WellFormedTelemetry(ts[j]);
      var index := IndexTelemetry(ts).value;
      forall k | k in index
        ensures WellFormedTelemetry(index[k])
      {
        var j :| 0 <= j < |ts| && ts[j] == LastWithKey(ts, k).value && IdKey(ts[j].objectId) == Ok(k)
                 && forall j' :: j < j' < |ts| ==> IdKey(ts[j'].objectId) != Ok(k);
      }
      forall i | 0 <= i < |objs|
        ensures ReconcileOne(objs[i], index).Ok?
      {
        assert WellFormedObject(objs[i]);
        var key := IdKey(objs[i].objectId).value;
        var telem := if key in index then index[key] else NoTelemetry;
        assert WellFormedPosition(telem.position);
        var pos := ResolvePosition(telem, objs[i]);
        assert pos.JObj? && ReadablePosition(pos);
      }
    }
  }
}

=== FILE: scenarios.dfy ===
/** Concrete end-to-end cases: one vehicle reconciled from both streams and served by
    the moving and stopped routes, and the two authentication outcomes. */
module Scenarios {
  import opened Wrappers
  import opened JsonValue
  import Text
  import opened Reconciler
  import opened SnapshotCache
  import opened QueryService
  import opened ApiHandler
  import Auth
  import Seqs

  const VehicleA1: RawObject := RawObject(
    objectId := Some(JStr("A1")), number := None, name := None,
    licensePlate := Some(JStr(" AB-123 ")), vehicleType := None, position := None,
    locationDescription := None, odometer := Some(JInt(15050)), lastGpsTime := None)

  const TelemetryA1: RawTelemetry := RawTelemetry(
    objectId := Some(JStr("A1")), position := None, speed := Some(JInt(42)),
    ignition := None, standStill := Some(JBool(false)))

  /** The record expected for A1. */
  const RecordA1: Position := Position(
    objectId := JStr("A1"), number := JStr(""), name := JStr(""), licensePlate := "AB-123",
    vehicleType := JStr(""), latitude := JNull, longitude := JNull, address := JStr(""),
    speed := JInt(42), ignition := JStr("UNKNOWN"), standStill := JBool(false),
    lastGpsTime := JStr(""), odometerKm := 150.5)

  lemma SpaceCharacters()
    ensures Text.IsSpace(' ') && !Text.IsSpace('A') && !Text.IsSpace('3')
  {
  }

  lemma TrimPlateA1()
    ensures Text.TrimStart(" AB-123 ") == "AB-123 "
    ensures Text.TrimEnd("AB-123 ") == "AB-123"
  {
    SpaceCharacters();
    assert " AB-123 "[1..] == "AB-123 ";
    assert "AB-123 "[..6] == "AB-123";
  }

  lemma PlateA1()
    ensures StrippedPlate(VehicleA1.licensePlate) == Ok("AB-123")
  {
    TrimPlateA1();
    assert Text.Strip(" AB-123 ") == "AB-123";
  }

  lemma IndexA1()
    ensures IndexTelemetry([TelemetryA1]) == Ok(map[StrKey("A1") := TelemetryA1])
  {
    assert [TelemetryA1][..0] == [];
  }

  lemma FieldsA1()
    ensures OdometerKm(VehicleA1.odometer) == Ok(150.5)
    ensures ResolvePosition(TelemetryA1, VehicleA1) == EmptyObject
    ensures ResolveAddress(EmptyObject, VehicleA1) == Ok(JStr(""))
    ensures PositionField(EmptyObject, "latitude") == JNull
    ensures PositionField(EmptyObject, "longitude") == JNull
    ensures PositionField(EmptyObject, "time") == JNull
  {
  }

  lemma RecordForA1()
    ensures RecordFor(JStr("A1"), VehicleA1, TelemetryA1) == Ok(RecordA1)
  {
    PlateA1();
    FieldsA1();
  }

  /** The record for A1: plate trimmed, telemetry speed and stand-still, no ignition
      reported, 150.5 km. */
  lemma ReconcileVehicleA1()
    ensures Reconcile(Some([VehicleA1]), Some([TelemetryA1])) == Ok([RecordA1])
  {
    var index := map[StrKey("A1") := TelemetryA1];
    IndexA1();
    OneA1(index);
    AllA1(index);
  }

  lemma OneA1(index: map<Key, RawTelemetry>)
    requires index == map[StrKey("A1") := TelemetryA1]
    ensures ReconcileOne(VehicleA1, index) == Ok(RecordA1)
  {
    RecordForA1();
  }

  lemma AllA1(index: map<Key, RawTelemetry>)
    requires ReconcileOne(VehicleA1, index) == Ok(RecordA1)
    ensures ReconcileAll([VehicleA1], index) == Ok([RecordA1])
  {
    var xs := [VehicleA1];
    var f := o => ReconcileOne(o, index);
    assert f(xs[0]) == Ok(RecordA1);
    var r := Seqs.MapUntilError(xs, f);
    assert r.Ok?;
    assert r.value == [RecordA1];
  }

  /** After an update with A1's record, `/positions/moving` lists it and
      `/positions/stopped` does not. */
  lemma VehicleA1IsMoving(c: Cache, now: Instant, later: Instant)
    ensures var ps := Reconcile(Some([VehicleA1]), Some([TelemetryA1])).value;
            var v := Get(Update(c, ps, now), later);
            && MovingView(v).Some?
            && MovingView(v).value.positions == ps
            && StoppedView(v).positions == []
  {
    ReconcileVehicleA1();
    assert IsMoving(RecordA1) && !IsStopped(RecordA1);
  }

  /** A wrong bearer token without a query key is refused with 401. */
  lemma WrongBearerIsRefused(c: Cache, now: Instant)
    ensures HandleGet("s3cret", c, now,
              Request(GET, "/positions", "/positions", Some("Bearer wrong"), None, None, None))
            == Response(401, Unauthorized(UnauthorizedMessage))
  {
    assert Text.StartsWith("Bearer wrong", Auth.BearerPrefix);
    assert "Bearer wrong"[7..] == "wrong";
  }

  /** The correct key in the query parameter is served with 200. */
  lemma QueryKeyIsServed(c: Cache, now: Instant)
    ensures HandleGet("s3cret", c, now,
              Request(GET, "/positions?api_key=s3cret", "/positions", None, Some("s3cret"), None, None))
            == Response(200, Snapshot(Get(c, now)))
  {
  }
}

=== FILE: seqs.dfy ===
/** Order-preserving selection from a sequence: the shape of every list comprehension
    `[p for p in positions if cond(p)]` the HTTP handler evaluates. */
module Seqs {
  import opened Wrappers

  /** `a` can be obtained from `b` by deleting elements, without reordering the rest. */
  predicate IsSubsequence<T(==)>(a: seq<T>, b: seq<T>)
    decreases |b|
  {
    if |a| == 0 then true
    else if |b| == 0 then false
    else if a[0] == b[0] then IsSubsequence(a[1..], b[1..])
    else IsSubsequence(a, b[1..])
  }

  /** Every sequence is a subsequence of itself. */
  lemma {:induction false} SubsequenceOfSelf<T>(s: seq<T>)
    ensures IsSubsequence(s, s)
    decreases |s|
  {
    if |s| > 0 {
      SubsequenceOfSelf(s[1..]);
    }
  }

  /** `[x for x in s if keep(x)]`: the elements of `s` that satisfy `keep`, in their order,
      each kept as many times as it occurs in `s`. */
  function Filter<T(==)>(s: seq<T>, keep: T -> bool): (r: seq<T>)
    ensures |r| <= |s|
    ensures forall x :: x in r ==> x in s && keep(x)
    ensures forall i :: 0 <= i < |s| && keep(s[i]) ==> s[i] in r
    ensures IsSubsequence(r, s)
    ensures forall x :: x in s ==> multiset(r)[x] == (if keep(x) then multiset(s)[x] else 0)
  {
    if |s| == 0 then []
    else
      var rest := Filter(s[1..], keep);
      assert forall i :: 1 <= i < |s| ==> s[i] == s[1..][i - 1];
      assert s == [s[0]] + s[1..];
      if keep(s[0]) then [s[0]] + rest else rest
  }

  /** Selection distributes over concatenation. */
  lemma {:induction false} FilterAppend<T>(a: seq<T>, b: seq<T>, keep: T -> bool)
    ensures Filter(a + b, keep) == Filter(a, keep) + Filter(b, keep)
    decreases |a|
  {
    if |a| == 0 {
      assert a + b == b;
    } else {
      assert (a + b)[1..] == a[1..] + b;
      FilterAppend(a[1..], b, keep);
    }
  }

  /** Selecting with a condition every element meets returns the whole sequence. */
  lemma {:induction false} FilterKeepsAll<T>(s: seq<T>, keep: T -> bool)
    requires forall i :: 0 <= i < |s| ==> keep(s[i])
    ensures Filter(s, keep) == s
    decreases |s|
  {
    if |s| > 0 {
      FilterKeepsAll(s[1..], keep);
    }
  }

  /** Selections under two conditions no element meets together never hold more
      elements, between them, than the sequence they were taken from. */
  lemma {:induction false} DisjointFilterCounts<T>(s: seq<T>, f: T -> bool, g: T -> bool)
    requires forall i :: 0 <= i < |s| ==> !(f(s[i]) && g(s[i]))
    ensures |Filter(s, f)| + |Filter(s, g)| <= |s|
    decreases |s|
  {
    if |s| > 0 {
      DisjointFilterCounts(s[1..], f, g);
    }
  }

  /** When every element meets exactly one of two conditions, the two selections
      together account for every element. */
  lemma {:induction false} PartitionFilterCounts<T>(s: seq<T>, f: T -> bool, g: T -> bool)
    requires forall i :: 0 <= i < |s| ==> f(s[i]) != g(s[i])
    ensures |Filter(s, f)| + |Filter(s, g)| == |s|
    decreases |s|
  {
    if |s| > 0 {
      PartitionFilterCounts(s[1..], f, g);
    }
  }

  /** A loop that applies a raising step `f` to each element in order and stops at the
      first exception: every element succeeded and the results line up one for one, or
      the error is that of the first element that failed. */
  function MapUntilError<A, B, E>(xs: seq<A>, f: A -> Result<B, E>): (r: Result<seq<B>, E>)
    ensures r.Ok? <==> forall i :: 0 <= i < |xs| ==> f(xs[i]).Ok?
    ensures r.Ok? ==> |r.value| == |xs|
    ensures r.Ok? ==> forall i :: 0 <= i < |xs| ==> r.value[i] == f(xs[i]).value
    ensures r.Err? ==> exists i :: 0 <= i < |xs| && f(xs[i]) == Err(r.error)
                           && forall j :: 0 <= j < i ==> f(xs[j]).Ok?
    decreases |xs|
  {
    if |xs| == 0 then Ok([])
    else
      assert forall i :: 1 <= i < |xs| ==> xs[1..][i - 1] == xs[i];
      match f(xs[0])
      case Err(e) => Err(e)
      case Ok(y) =>
        match MapUntilError(xs[1..], f)
        case Err(e) =>
          ghost var i :| 0 <= i < |xs[1..]| && f(xs[1..][i]) == Err(e)
                    && forall j :: 0 <= j < i ==> f(xs[1..][j]).Ok?;
          assert forall j :: 0 <= j < i + 1 ==> f(xs[j]).Ok?;
          Err(e)
        case Ok(ys) => Ok([y] + ys)
  }
}

=== FILE: supervisor.dfy ===
/** The background scraper loop (`background_scraper`) as a state machine over abstract
    driver outcomes. The browser is not modelled: what starting it, logging in, reloading
    the page and writing the snapshot file produce are events, and so is the arrival of
    an intercepted "objects" or "telemetry" response, which may happen at any moment while
    a browser session is open. Sleeps take no step. What the machine states is the effect
    of the loop on the cache and on the intercepted data. */
module Supervisor {
  import opened Wrappers
  import opened Reconciler
  import opened SnapshotCache
  import QueryService

  /** Where the loop continues after a successful login. */
  datatype AfterLogin =
    | FirstLogin          // login right after starting the browser: start polling
    | AfterEmptyCapture   // re-login because the capture was empty: sleep, then reload
    | AfterFailedReload   // re-login because the reload failed: poll again

  datatype Phase =
    | Starting                     // about to launch the browser
    | LoggingIn(resume: AfterLogin)
    | Polling                      // about to read the intercepted data
    | Refreshing                   // about to reload the page

  /** The loop's state: its position, the cache, and the scraper's `intercepted_data`,
      which lives as long as the scraper object, across browser restarts. */
  datatype State = State(
    phase: Phase,
    cache: Cache,
    objects: Option<seq<RawObject>>,
    telemetry: Option<seq<RawTelemetry>>)

  const Initial: State := State(Starting, Fresh, None, None)

  datatype Event =
    | StartSucceeded
    | StartFailed(message: string)                       // str() of the exception
    | LoginSucceeded
    | LoginFailed(message: string)                       // str() of the exception
    | Poll(now: Instant, writeFailure: Option<string>)   // clock at update; snapshot-file exception
    | ReloadSucceeded
    | ReloadFailed
    | ObjectsIntercepted(objects: Option<seq<RawObject>>)
    | TelemetryIntercepted(telemetry: Option<seq<RawTelemetry>>)

  /** The prefix `login()` puts before the exception text it records. */
  const LoginFailedPrefix: string := "Login failed: "

  /** One step of the loop; `None` when the event cannot happen in the current phase. */
  function Step(s: State, e: Event): (r: Option<State>)
    ensures r.Some? && (e.LoginSucceeded? || e.LoginFailed?) ==>
              r.value.cache.loginCount == s.cache.loginCount + 1
    ensures r.Some? && !(e.LoginSucceeded? || e.LoginFailed?) ==>
              r.value.cache.loginCount == s.cache.loginCount
    ensures r.Some? && e.LoginFailed? ==>
              r.value.cache.error == Some(LoginFailedPrefix + e.message) && r.value.phase == Starting
    // the other three places the loop records an error, each followed by a restart
    ensures r.Some? && e.StartFailed? ==> r.value.cache.error == Some(e.message) && r.value.phase == Starting
    ensures r.Some? && e.Poll? && Reconcile(s.objects, s.telemetry).Err? ==>
              r.value.cache.error == Some(Message(Reconcile(s.objects, s.telemetry).error))
              && r.value.phase == Starting
    ensures r.Some? && e.Poll? && e.writeFailure.Some? && Published(s, e, r.value) ==>
              r.value.cache.error == e.writeFailure && r.value.phase == Starting
  {
    match e
    case ObjectsIntercepted(objects) =>
      if s.phase == Starting then None else Some(s.(objects := objects))
    case TelemetryIntercepted(telemetry) =>
      if s.phase == Starting then None else Some(s.(telemetry := telemetry))
    case StartSucceeded =>
      if s.phase == Starting then Some(s.(phase := LoggingIn(FirstLogin))) else None
    case StartFailed(message) =>
      // the outer `except` records the error; `finally` closes the browser; sleep; restart
      if s.phase == Starting then Some(s.(cache := SetError(s.cache, message))) else None
    case LoginSucceeded =>
      if !s.phase.LoggingIn? then None
      else
        var next := match s.phase.resume
          case FirstLogin => Polling
          case AfterEmptyCapture => Refreshing
          case AfterFailedReload => Polling;
        Some(s.(phase := next, cache := CountLogin(s.cache)))
    case LoginFailed(message) =>
      // `login()` counts the attempt and records the error; the loop closes and restarts
      if !s.phase.LoggingIn? then None
      else Some(s.(phase := Starting, cache := SetError(CountLogin(s.cache), LoginFailedPrefix + message)))
    case Poll(now, writeFailure) =>
      if s.phase != Polling then None
      else
        (match Reconcile(s.objects, s.telemetry)
         case Err(err) =>
           // the inner `except` records the error and breaks out to the restart
           Some(s.(phase := Starting, cache := SetError(s.cache, Message(err))))
         case Ok(positions) =>
           if |positions| == 0 then Some(s.(phase := LoggingIn(AfterEmptyCapture)))
           else
             var updated := Update(s.cache, positions, now);
             if writeFailure.None? then Some(s.(phase := Refreshing, cache := updated))
             else Some(s.(phase := Starting, cache := SetError(updated, writeFailure.value))))
    case ReloadSucceeded =>
      // `refresh()` forgets the previous capture before reloading
      if s.phase == Refreshing then Some(s.(phase := Polling, objects := None, telemetry := None)) else None
    case ReloadFailed =>
      if s.phase == Refreshing then
        Some(s.(phase := LoggingIn(AfterFailedReload), objects := None, telemetry := None))
      else None
  }

  /** The cache was updated by this step: a poll whose capture reconciled to a non-empty
      list, which became the cached positions. */
  predicate Published(s: State, e: Event, s': State) {
    && e.Poll? && s.phase == Polling
    && Reconcile(s.objects, s.telemetry).Ok?
    && |Reconcile(s.objects, s.telemetry).value| > 0
    && s'.cache.positions == Reconcile(s.objects, s.telemetry).value
    && s'.cache.lastUpdate == Some(e.now)
  }

  /** The cache invariant the loop maintains: positions are empty and the refresh counter
      zero exactly until the first update, and never empty after it. */
  predicate Inv(s: State) {
    && (s.cache.lastUpdate.None? <==> s.cache.refreshCount == 0)
    && (s.cache.lastUpdate.None? ==> s.cache.positions == [])
    && (s.cache.lastUpdate.Some? ==> |s.cache.positions| > 0)
  }

  /** Each step counts a refresh exactly when it publishes, and otherwise leaves the
      positions and the update time alone. */
  lemma StepPublishes(s: State, e: Event)
    requires Step(s, e).Some?
    ensures var s' := Step(s, e).value;
            && (s'.cache.refreshCount == s.cache.refreshCount + 1 <==> Published(s, e, s'))
            && (!Published(s, e, s') ==>
                  s'.cache.refreshCount == s.cache.refreshCount
                  && s'.cache.positions == s.cache.positions
                  && s'.cache.lastUpdate == s.cache.lastUpdate)
  {
  }

  /** Every step keeps the cache invariant: the cache is only ever updated with a
      non-empty list. */
  lemma StepPreservesInv(s: State, e: Event)
    requires Inv(s)
    requires Step(s, e).Some?
    ensures Inv(Step(s, e).value)
  {
    StepPublishes(s, e);
  }

  /** The error is cleared only by an update. */
  lemma ErrorClearedOnlyByUpdate(s: State, e: Event)
    requires Step(s, e).Some?
    requires s.cache.error.Some? && Step(s, e).value.cache.error.None?
    ensures Published(s, e, Step(s, e).value)
  {
    StepPublishes(s, e);
  }

  /** The intercepted data survives everything except a new interception or a reload,
      which forgets both lists: in particular a browser restart or a re-login keeps the
      previous session's capture. */
  lemma CaptureFrame(s: State, e: Event)
    requires Step(s, e).Some?
    ensures var s' := Step(s, e).value;
            && (e.ReloadSucceeded? || e.ReloadFailed? ==> s'.objects == None && s'.telemetry == None)
            && (!e.ObjectsIntercepted? && !e.ReloadSucceeded? && !e.ReloadFailed? ==> s'.objects == s.objects)
            && (!e.TelemetryIntercepted? && !e.ReloadSucceeded? && !e.ReloadFailed? ==> s'.telemetry == s.telemetry)
  {
  }

  /** After a failed login the service reports unhealthy, whatever it reported before. */
  lemma LoginFailureIsUnhealthy(s: State, message: string)
    requires Step(s, LoginFailed(message)).Some?
    ensures !QueryService.IsHealthy(Stats(Step(s, LoginFailed(message)).value.cache))
  {
  }

  /** A capture that makes reconciliation raise leaves the service unhealthy until the
      next update: the recorded exception text is never empty. */
  lemma ReconcileFailureIsUnhealthy(s: State, now: Instant, writeFailure: Option<string>)
    requires Step(s, Poll(now, writeFailure)).Some?
    requires Reconcile(s.objects, s.telemetry).Err?
    ensures var s' := Step(s, Poll(now, writeFailure)).value;
            && s'.cache.error == Some(Message(Reconcile(s.objects, s.telemetry).error))
            && !QueryService.IsHealthy(Stats(s'.cache))
            && s'.phase == Starting
  {
  }

  /** After a poll that publishes and writes its file, the service reports healthy. */
  lemma PublishIsHealthy(s: State, now: Instant)
    requires Step(s, Poll(now, None)).Some?
    requires Published(s, Poll(now, None), Step(s, Poll(now, None)).value)
    ensures QueryService.IsHealthy(Stats(Step(s, Poll(now, None)).value.cache))
  {
  }

  /** Runs a sequence of events from `s`; `None` as soon as one cannot happen. */
  function Run(s: State, events: seq<Event>): (r: Option<State>)
    decreases |events|
  {
    if |events| == 0 then Some(s)
    else
      match Step(s, events[0])
      case None => None
      case Some(s1) => Run(s1, events[1..])
  }

  /** Along any run the invariant holds, the counters never decrease, and once the cache
      has been updated it stays updated: a non-empty position list is never replaced by
      an empty one. */
  lemma {:induction false} RunPreservesInv(s: State, events: seq<Event>)
    requires Inv(s)
    requires Run(s, events).Some?
    ensures Inv(Run(s, events).value)
    ensures Run(s, events).value.cache.loginCount >= s.cache.loginCount
    ensures Run(s, events).value.cache.refreshCount >= s.cache.refreshCount
    ensures s.cache.lastUpdate.Some? ==> Run(s, events).value.cache.lastUpdate.Some?
    decreases |events|
  {
    if |events| > 0 {
      var s1 := Step(s, events[0]).value;
      StepPreservesInv(s, events[0]);
      StepPublishes(s, events[0]);
      RunPreservesInv(s1, events[1..]);
    }
  }

  /** Every state the loop reaches from its start satisfies the invariant. */
  lemma ReachableInv(events: seq<Event>)
    requires Run(Initial, events).Some?
    ensures Inv(Run(Initial, events).value)
    ensures var c := Run(Initial, events).value.cache;
            c.lastUpdate.Some? ==> |c.positions| > 0
  {
    RunPreservesInv(Initial, events);
  }

  /** A capture outlives its browser session: when writing the snapshot file fails, the
      loop restarts the browser, and if the new session intercepts nothing the next poll
      publishes the previous session's capture again, with a new time and no error. */
  lemma CaptureRepublishedAfterRestart(s: State, t1: Instant, message: string, t2: Instant)
    requires s.phase == Polling
    requires Reconcile(s.objects, s.telemetry).Ok? && |Reconcile(s.objects, s.telemetry).value| > 0
    ensures var r := Run(s, [Poll(t1, Some(message)), StartSucceeded, LoginSucceeded, Poll(t2, None)]);
            && r.Some?
            && r.value.cache.positions == Reconcile(s.objects, s.telemetry).value
            && r.value.cache.lastUpdate == Some(t2)
            && r.value.cache.error == None
            && r.value.cache.refreshCount == s.cache.refreshCount + 2
  {
    var ps := Reconcile(s.objects, s.telemetry).value;
    var s1 := s.(phase := Starting, cache := SetError(Update(s.cache, ps, t1), message));
    assert Step(s, Poll(t1, Some(message))) == Some(s1);
    var s2 := s1.(phase := LoggingIn(FirstLogin));
    assert Step(s1, StartSucceeded) == Some(s2);
    var s3 := s2.(phase := Polling, cache := CountLogin(s2.cache));
    assert Step(s2, LoginSucceeded) == Some(s3);
    var s4 := s3.(phase := Refreshing, cache := Update(s3.cache, ps, t2));
    assert Step(s3, Poll(t2, None)) == Some(s4);
    RunTwo(s, Poll(t1, Some(message)), StartSucceeded, s2);
    RunTwo(s2, LoginSucceeded, Poll(t2, None), s4);
    RunAppend(s, [Poll(t1, Some(message)), StartSucceeded], [LoginSucceeded, Poll(t2, None)], s2);
    assert [Poll(t1, Some(message)), StartSucceeded] + [LoginSucceeded, Poll(t2, None)]
        == [Poll(t1, Some(message)), StartSucceeded, LoginSucceeded, Poll(t2, None)];
  }

  /** Running two events is stepping twice. */
  lemma RunTwo(s: State, e1: Event, e2: Event, s2: State)
    requires Step(s, e1).Some? && Step(Step(s, e1).value, e2) == Some(s2)
    ensures Run(s, [e1, e2]) == Some(s2)
  {
    assert [e1, e2][1..] == [e2];
    assert Run(Step(s, e1).value, [e2]) == Run(s2, []);
  }

  /** Running a concatenation is running its halves one after the other. */
  lemma {:induction false} RunAppend(s: State, a: seq<Event>, b: seq<Event>, mid: State)
    requires Run(s, a) == Some(mid)
    ensures Run(s, a + b) == Run(mid, b)
    decreases |a|
  {
    if |a| > 0 {
      assert (a + b)[0] == a[0] && (a + b)[1..] == a[1..] + b;
      RunAppend(Step(s, a[0]).value, a[1..], b, mid);
    } else {
      assert a + b == b;
    }
  }
}

=== FILE: text.dfy ===
/** The string operations the scraper and the query handler apply: `str.strip()`,
    `str.upper()`, `str.startswith` and the substring test `needle in haystack`. */
module Text {

  /** Python's `str.isspace()` for one character: the characters `str.strip()` removes. */
  predicate IsSpace(c: char) {
    var n := c as int;
    (0x09 <= n <= 0x0D) || (0x1C <= n <= 0x20) || n == 0x85 || n == 0xA0 || n == 0x1680
    || (0x2000 <= n <= 0x200A) || n == 0x2028 || n == 0x2029 || n == 0x202F || n == 0x205F
    || n == 0x3000
  }

  /** `s` with its leading whitespace removed: a suffix of `s`, everything cut off is
      whitespace, and it does not itself start with whitespace. */
  function TrimStart(s: string): (r: string)
    ensures |r| <= |s| && r == s[|s| - |r|..]
    ensures forall i :: 0 <= i < |s| - |r| ==> IsSpace(s[i])
    ensures |r| > 0 ==> !IsSpace(r[0])
  {
    if |s| > 0 && IsSpace(s[0]) then TrimStart(s[1..]) else s
  }

  /** `s` with its trailing whitespace removed: a prefix of `s`, everything cut off is
      whitespace, and it does not itself end with whitespace. */
  function TrimEnd(s: string): (r: string)
    ensures |r| <= |s| && r == s[..|r|]
    ensures forall i :: |r| <= i < |s| ==> IsSpace(s[i])
    ensures |r| > 0 ==> !IsSpace(r[|r| - 1])
  {
    if |s| > 0 && IsSpace(s[|s| - 1]) then TrimEnd(s[..|s| - 1]) else s
  }

  /** `r` is the slice of `s` starting at `lo`, and everything of `s` outside that slice is
      whitespace. */
  ghost predicate SliceBetweenSpaces(s: string, r: string, lo: int) {
    && 0 <= lo && lo + |r| <= |s| && r == s[lo..lo + |r|]
    && (forall i :: 0 <= i < lo ==> IsSpace(s[i]))
    && (forall i :: lo + |r| <= i < |s| ==> IsSpace(s[i]))
  }

  /** `r` is `s` with surrounding whitespace removed: a middle slice of `s` with only
      whitespace around it, and no whitespace at either of its own ends. */
  ghost predicate IsStripped(s: string, r: string) {
    && (|r| > 0 ==> !IsSpace(r[0]) && !IsSpace(r[|r| - 1]))
    && exists lo :: SliceBetweenSpaces(s, r, lo)
  }

  /** Python's `s.strip()` with no argument. */
  function Strip(s: string): (r: string)
    ensures IsStripped(s, r)
  {
    var t := TrimStart(s);
    var r := TrimEnd(t);
    assert r == s[|s| - |t|..][..|r|] == s[|s| - |t|..|s| - |t| + |r|];
    assert forall i :: |s| - |t| + |r| <= i < |s| ==> s[i] == t[i - (|s| - |t|)];
    assert SliceBetweenSpaces(s, r, |s| - |t|);
    r
  }

  /** A string without surrounding whitespace is its own strip. */
  lemma {:induction false} StripIdempotent(s: string)
    ensures Strip(Strip(s)) == Strip(s)
  {
    var r := Strip(s);
    if |r| > 0 {
      assert !IsSpace(r[0]) && !IsSpace(r[|r| - 1]);
      assert TrimStart(r) == r;
      assert TrimEnd(r) == r;
    } else {
      assert r == [];
    }
  }

  /** Upper-cases one character; only the ASCII letters are mapped. */
  function UpperChar(c: char): char {
    if 'a' <= c <= 'z' then (c as int - 32) as char else c
  }

  /** Python's `s.upper()`, restricted to ASCII case mapping: same length, each character
      upper-cased in place. */
  function Upper(s: string): (r: string)
    ensures |r| == |s|
    ensures forall i :: 0 <= i < |s| ==> r[i] == UpperChar(s[i])
  {
    seq(|s|, i requires 0 <= i < |s| => UpperChar(s[i]))
  }

  /** Python's `s.startswith(prefix)`. */
  predicate StartsWith(s: string, prefix: string) {
    |prefix| <= |s| && s[..|prefix|] == prefix
  }

  /** Python's `needle in hay` on strings, scanning the start positions left to right. */
  predicate Contains(hay: string, needle: string)
    decreases |hay|
  {
    StartsWith(hay, needle) || (|hay| > 0 && Contains(hay[1..], needle))
  }

  /** `needle` occurs in `hay` at position `i`. */
  ghost predicate OccursAt(hay: string, needle: string, i: int) {
    0 <= i && i + |needle| <= |hay| && hay[i..i + |needle|] == needle
  }

  /** `Contains` holds exactly when `needle` occurs somewhere in `hay` as a contiguous slice. */
  lemma {:induction false} ContainsIff(hay: string, needle: string)
    ensures Contains(hay, needle) <==> exists i :: OccursAt(hay, needle, i)
    decreases |hay|
  {
    if Contains(hay, needle) {
      if StartsWith(hay, needle) {
        assert OccursAt(hay, needle, 0);
      } else {
        ContainsIff(hay[1..], needle);
        var i :| OccursAt(hay[1..], needle, i);
        assert hay[i + 1..i + 1 + |needle|] == hay[1..][i..i + |needle|];
        assert OccursAt(hay, needle, i + 1);
      }
    }
    if exists i :: OccursAt(hay, needle, i) {
      var i :| OccursAt(hay, needle, i);
      if i == 0 {
        assert StartsWith(hay, needle);
      } else {
        assert hay[1..][i - 1..i - 1 + |needle|] == hay[i..i + |needle|];
        assert OccursAt(hay[1..], needle, i - 1);
        ContainsIff(hay[1..], needle);
      }
    }
  }

  /** Python's `str.isascii()`. */
  predicate IsAscii(s: string) {
    forall i :: 0 <= i < |s| ==> s[i] as int < 128
  }
}

=== FILE: wrappers.dfy ===
/** Option and Result, the two failure-carrying datatypes the rest of the model uses.
    `None` stands for a Python key that is absent or a value that was never captured;
    `Err` stands for a Python exception raised part-way through an operation. */
module Wrappers {

  datatype Option<+T> = None | Some(value: T) {

    /** Python's `d.get(key, default)`: the value when present, otherwise the default. */
    function GetOr(default: T): T {
      match this
      case Some(v) => v
      case None => default
    }
  }

  datatype Result<+T, +E> = Ok(value: T) | Err(error: E) {

    predicate IsFailure() {
      Err?
    }

    function PropagateFailure<U>(): Result<U, E>
      requires Err?
    {
      Err(error)
    }

    function Extract(): T
      requires Ok?
    {
      value
    }
  }
}
